=== FILE: README.md ===
# 3D assistant front end: socket, dispatch, speech and lip-sync core in Dafny

The repository is a browser front end for a talking 3D avatar. Most of it
is rendering and React wiring. This project models the four pieces of logic
in it that can be stated as contracts. Each one is a pure step function or
reducer, and browser APIs become abstract events.

1. **The reconnecting socket client** (`useWebSocket`). The socket's
   `open`, `close`, `error` and `message` events, the firing of a reconnect
   timer, the two send functions and the unmount cleanup act on a `Client`
   state. That state holds the `readyState` of the held socket, the
   `isConnected`, `error` and `receivedData` state, the pending 3000 ms
   reconnect timers and every frame handed to a socket
   (`socket_client.dfy`). Outbound transcripts travel in the envelope
   `{"transcibed_text":"…"}`, with the key's spelling kept. The envelope is
   modelled with JSON.stringify's string escaping, and a decoder reads it
   back (`json_text.dfy`).
2. **Inbound dispatch**. The page's effect on `receivedData` is a reducer
   over the answer text, the product list and its visibility. Its rules
   apply in priority order (`inbound.dfy`).
3. **The speech session**. `handleResult` folds recognition results into
   the final and interim text, and `startListening` / `stopListening`
   reset them (`speech_session.dfy`). The page combines these with the
   send-once-per-change transcript effect, the microphone button and the
   end-session button (`page.dfy`). The end-session button is "Force End"
   (landingpage.jsx:840-845), in a debug panel the shipped page hides with
   `display: "none"` (line 827), so its scenarios below are reachable only
   when that panel is shown.
4. **The lip-sync frame step**. The phoneme → viseme → morph-target tables
   are in `visemes.dfy`. The 209-entry phoneme timeline, with its
   structural facts proved, is in `phoneme_timeline.dfy`. The per-frame
   lookup and the influence vector are in `lip_sync.dfy`.

Three facts about the client's retry behaviour:

- The unmount cleanup (landingpage.jsx:113-117) only closes the socket. It
  cancels no pending retry. The close handler still schedules one, so a
  new socket is built after unmount.
  `SocketClient.UnmountStillReconnects` proves this.
- The `error` handler (landingpage.jsx:65-68) only records the error.
  Retries come from the `close` handler or from a constructor that throws.
- Retrying never ends: the client has no terminal state.
  `SocketClient.RetriesNeverStop` proves this.

The model also proves things about the code as written that a reader might
not expect:

- The page only ever sends transcripts: over any run from mount, every
  frame it sends decodes to a final recognised text
  (`Page.PageSendsOnlyTranscripts`).
- A transcript recognised while the socket is not open counts as sent.
  No frame leaves. If the socket then opens and the same result is
  recognised next, nothing is sent either. A different transcript in
  between, or a microphone stop, lets it be sent again
  (`Page.TranscriptLostWhileDisconnected`, `Page.FirstTranscriptBeforeOpenLost`).
- Ending the session with the hidden "Force End" button keeps the last-sent
  transcript. Only the microphone button forgets it
  (`Page.EndSessionKeepsLastSent`, `Page.MicStopAllowsResend`).
- For 2 seconds after the hidden "Force End" button, pressing the microphone to
  start is undone in the same commit (`Page.MicStartUndoneWhileEnding`).

## Model

| member | source | states |
|---|---|---|
| `JsonText.EnvelopeRoundTrip` | src/pages/landingpage.jsx:131 | the backend's JSON reading of the frame `sendTextData` builds yields exactly the transcript passed in, whatever characters it contains |
| `JsonText.EnvelopeHasNoControlCharacters` | src/pages/landingpage.jsx:131 | the frame holds no raw control character, because JSON.stringify escapes every character below U+0020 |
| `JsonText.EnvelopeInjective` | src/pages/landingpage.jsx:131 | two different transcripts never produce the same frame |
| `JsonText.UnquoteQuoteBody` | src/pages/landingpage.jsx:131 | parsing JSON.stringify's string quoting gives back the original text and stops exactly at the closing quote |
| `JsonText.QuoteChar` | src/pages/landingpage.jsx:131 | a quoted character never starts with an unescaped quote or a raw control character |
| `Inbound.RuleFor` | src/pages/landingpage.jsx:667-688 | which branch a message takes: only `is_transcription` false is handled; final-with-msg, then JSON, then text-with-msg, the first match winning, each stated as an if-and-only-if |
| `Inbound.Dispatch` | src/pages/landingpage.jsx:667-688 | unhandled messages change nothing; a final message replaces the answer; a JSON message installs `msg` as the product list and sets `showProducts`, so the product list's render guard at line 1069 passes exactly when `msg` is truthy; a streamed word appends a space and the word, keeping the old answer as prefix; dispatch never clears `showProducts` |
| `Inbound.StreamedWordsAppend` | src/pages/landingpage.jsx:682-685 | a run of streamed words builds the answer word by word, each after one space, in arrival order, and leaves the products alone |
| `Inbound.FinalMessageWins` | src/pages/landingpage.jsx:671-673 | whatever was streamed before, a final message leaves the answer equal to its own `msg` |
| `Inbound.FinalBeatsJson` | src/pages/landingpage.jsx:671-679 | a message that is both final and JSON replaces the answer and does not touch the product list |
| `Inbound.EmptyJsonHidesProducts` | src/pages/landingpage.jsx:675-679 | the JSON branch does not test `msg`: an empty `msg` still sets `showProducts`, but the data is then falsy, so the render guard at line 1069 fails and a list that was on screen disappears |
| `SocketClient.Connect` | src/pages/landingpage.jsx:48-107 | a constructed socket starts in CONNECTING with no new timer; a throwing constructor records the error, keeps the old socket and schedules exactly one 3000 ms reconnect |
| `SocketClient.OnOpen` | src/pages/landingpage.jsx:52-56 | opening sets `isConnected` and clears the error, touching no timer, frame or message |
| `SocketClient.OnClose` | src/pages/landingpage.jsx:58-63 | a close clears `isConnected` and appends exactly one 3000 ms reconnect, with no limit and no mounted check |
| `SocketClient.OnError` | src/pages/landingpage.jsx:65-68 | an error is recorded and nothing else changes: not `isConnected`, not the timers |
| `SocketClient.OnMessage` | src/pages/landingpage.jsx:70-99 | a parsed frame that arrives while the socket is OPEN becomes `receivedData`; a frame that fails to parse, or arrives in any other state, leaves the whole state unchanged |
| `SocketClient.OnTimer` | src/pages/landingpage.jsx:62 | a firing reconnect timer consumes itself and runs `connect` again: a new CONNECTING socket, or the error and a fresh timer |
| `SocketClient.SendTextData` | src/pages/landingpage.jsx:129-135 | when OPEN, exactly one text frame is appended and it decodes to the transcript; otherwise nothing is sent, queued or changed |
| `SocketClient.SendTextNotDeduplicated` | src/pages/landingpage.jsx:129-135 | the client keeps no memory of what it sent: the same transcript sent twice while OPEN leaves as two identical frames, each decoding to it |
| `SocketClient.SendAudioData` | src/pages/landingpage.jsx:121-127 | when OPEN, the payload is appended unchanged as one binary frame; otherwise a no-op |
| `SocketClient.OnUnmount` | src/pages/landingpage.jsx:113-117 | unmount moves a CONNECTING or OPEN socket to CLOSING and cancels no timer |
| `SocketClient.Step` | src/pages/landingpage.jsx:47-135 | an event either leaves the sent frames alone or, for a send call, appends exactly one frame |
| `SocketClient.RunValid` | src/pages/landingpage.jsx:47-118 | in every state reachable from mounting, at most one retry is pending, a socket is dead exactly when one is, every timer waits 3000 ms, and `isConnected` means the socket was opened |
| `SocketClient.RetriesNeverStop` | src/pages/landingpage.jsx:58-107 | in any reachable state with a dead socket a reconnect is pending, and its firing starts a new connection attempt |
| `SocketClient.UnmountStillReconnects` | src/pages/landingpage.jsx:58-63 | after unmount, the closing socket's close event schedules a reconnect that builds a new socket |
| `SocketClient.UnmountIdempotent` | src/pages/landingpage.jsx:113-117 | running the cleanup twice equals running it once |
| `SocketClient.SentOnlyOnRequest` | src/pages/landingpage.jsx:121-135 | over any run, earlier frames are never rewritten and no more frames go out than there were send calls |
| `SpeechSession.CollectResults` | src/pages/landingpage.jsx:421-432 | the loop from `resultIndex` computes the final text (each final piece plus a space) and the interim text (interim pieces joined) |
| `SpeechSession.FinalTextNonEmptyIff` | src/pages/landingpage.jsx:424-439 | the final text is non-empty exactly when some considered piece is final, even an empty one, and then ends in a space |
| `SpeechSession.HandleResult` | src/pages/landingpage.jsx:420-445 | a final piece makes the transcript the final text, replacing rather than appending, and clears the interim text; otherwise the transcript stays and the interim text changes only to a non-empty interim concatenation |
| `SpeechSession.EarlierResultsIgnored` | src/pages/landingpage.jsx:424 | results before `resultIndex` do not influence the outcome |
| `SpeechSession.EmptyInterimKeepsState` | src/pages/landingpage.jsx:434-444 | a result with only empty interim pieces changes nothing |
| `SpeechSession.StartListening` | src/pages/landingpage.jsx:523-529 | starting clears transcript and interim text and asks to listen |
| `SpeechSession.StopListening` | src/pages/landingpage.jsx:532-538 | stopping clears transcript and interim text and stops listening |
| `Page.SendTranscript` | src/pages/landingpage.jsx:728-738 | a transcript is sent iff non-empty and different from the last sent; then the last-sent mark moves to it, open socket or not, and afterwards nothing is left to send |
| `Page.EndSessionEffect` | src/pages/landingpage.jsx:741-755 | while the session is ending every commit stops listening and clears both texts; nothing else changes |
| `Page.Settle` | src/pages/landingpage.jsx:728-755 | after both effects the page is at rest: nothing left to send, and an ending session is not listening |
| `Page.SettledIsFixpoint` | src/pages/landingpage.jsx:728-755 | running the effects again on a page at rest changes nothing |
| `Page.OnMicClick` | src/pages/landingpage.jsx:761-781 | stopping clears the last-sent mark, the answer and product visibility; starting clears only the answer and keeps the last-sent mark |
| `Page.OnEndSession` | src/pages/landingpage.jsx:784-788 | ending raises the flag, hides the products and clears the answer, keeping the last-sent mark |
| `Page.OnNetwork` | src/pages/landingpage.jsx:667-688 | a message the client delivers runs through dispatch exactly once; any other network event leaves the view alone |
| `Page.Step` | src/pages/landingpage.jsx:636-788 | while mounted, after every event and its effects the page is at rest; once unmounted, only the socket's own events move the client and nothing else changes |
| `Page.Handle` | src/pages/landingpage.jsx:761-788 | no event handler of a mounted page sends a frame itself; frames come only from the transcript effect |
| `Page.SettleSendsOnlyTranscripts` | src/pages/landingpage.jsx:728-738 | the only frame the effects add is the envelope of the current transcript, which is non-empty and final |
| `Page.StepSendsOnlyTranscripts` | src/pages/landingpage.jsx:728-738 | one page step keeps the transcript empty or final, and any frame it adds is the envelope of that final transcript |
| `Page.PageSendsOnlyTranscripts` | src/pages/landingpage.jsx:728-738 | over any run from mount, every frame the page has sent decodes to a final recognised text (non-empty, ending in the space `handleResult` appends); no other frame ever leaves the page |
| `Page.ReachableSettled` | src/pages/landingpage.jsx:728-755 | every page reachable from mount, through any events, has no transcript left to send and, while ending, is not listening |
| `Page.UnmountedPageInert` | src/pages/landingpage.jsx:113-117 | after unmount, whatever events follow, no frame is sent and the speech state, last-sent mark, view and end-of-session flag stay as they were |
| `Page.RecognizedSendsIff` | src/pages/landingpage.jsx:728-738 | a recognition result sends a frame iff the page is mounted, its transcript is non-empty and new, and the socket is open; the last-sent mark ignores the socket |
| `Page.RepeatedResultSendsOnce` | src/pages/landingpage.jsx:728-738 | delivering the same result twice sends nothing the second time |
| `Page.TranscriptLostWhileDisconnected` | src/pages/landingpage.jsx:728-738 | a transcript recognised while the socket is not open sends no frame but is marked as sent; once the socket opens, recognising the same result next still sends nothing |
| `Page.FirstTranscriptBeforeOpenLost` | src/pages/landingpage.jsx:728-738 | starting from mount, the first transcript is recognised before the connection opens: no frame leaves, and the text is marked as sent |
| `Page.MicStopAllowsResend` | src/pages/landingpage.jsx:761-772 | after stop and start with the microphone button, the same final text is sent again as one envelope frame |
| `Page.EndSessionKeepsLastSent` | src/pages/landingpage.jsx:784-788 | after the (hidden) "Force End" button and a restart, the last text sent is not sent again |
| `Page.MicStartUndoneWhileEnding` | src/pages/landingpage.jsx:741-755 | while the session is ending, a microphone start is undone in the same commit |
| `Page.UnparsableFrameIgnored` | src/pages/landingpage.jsx:96-99 | a frame that fails to parse leaves a page at rest unchanged |
| `Visemes.MorphFor` | src/components/avatarmodel.jsx:370 | a label yields a morph target exactly when it is a key of `phonemeToViseme`, and the target is one of the mouth movements |
| `Visemes.CompositeMapping` | src/components/avatarmodel.jsx:10-42 | A, G, X → `mouthPress_L`; B, H → `mouthStretch_L`; C, D → `jawOpen`; E → `mouthFunnel`; F → `mouthPucker` |
| `Visemes.MorphForRange` | src/components/avatarmodel.jsx:10-42 | every produced target is one of those five, so `mouthPress_R` is never produced |
| `PhonemeTimeline.TimelineWellFormed` | src/components/avatarmodel.jsx:100-310 | the constant has 209 entries from 0.00 to 35.44; every label is a key of `phonemeToViseme`, each start is below its end, and each end equals the next start |
| `PhonemeTimeline.AppendWellFormed` | src/components/avatarmodel.jsx:100-310 | two well-formed timelines that meet end to start concatenate into one |
| `LipSync.FindActive` | src/components/avatarmodel.jsx:365-367 | the result is the first interval in sequence order containing the time, both ends inclusive, or none exactly when no interval contains it |
| `LipSync.SharedBoundaryEarlierWins` | src/components/avatarmodel.jsx:365-367 | in an ordered contiguous timeline, a time on a shared boundary selects the earlier interval |
| `LipSync.Coverage` | src/components/avatarmodel.jsx:365-367 | contiguity leaves no gaps: any time within the span finds an interval |
| `LipSync.TimelineCoverage` | src/components/avatarmodel.jsx:100-367 | a time finds an interval of the timeline exactly when it lies in [0.00, 35.44] |
| `LipSync.TimelineBoundaries` | src/components/avatarmodel.jsx:100-367 | at each of the 208 inner boundaries the earlier interval is active |
| `LipSync.TargetIndex` | src/components/avatarmodel.jsx:365-372 | over any timeline, the raised index is the mesh's index for the morph target of the first interval containing the time; it is absent when no interval contains the time, when the label has no target, or when the mesh lacks that target |
| `LipSync.Frame` | src/components/avatarmodel.jsx:352-376 | paused or ended audio switches to idle and keeps the influences; an unready avatar is untouched; otherwise every influence is reset, and only the target index gets 0.9 |
| `LipSync.AtMostOneRaised` | src/components/avatarmodel.jsx:363-374 | after a playing frame every influence is 0 or 0.9 and at most one is 0.9 |
| `LipSync.SilentOutsideTimeline` | src/components/avatarmodel.jsx:363-374 | outside [0.00, 35.44] every influence is 0 after the frame |
| `LipSync.SilentWithoutTargets` | src/components/avatarmodel.jsx:369-374 | a mesh with none of the five driven targets has every influence at 0 after the frame |
| `LipSync.ExactlyOneRaisedWithinTimeline` | src/components/avatarmodel.jsx:363-374 | within [0.00, 35.44], on a mesh with all five driven targets, exactly one influence is raised to 0.9 |

## Left out

- Real transport and timing. Sockets, `setTimeout` and the Web Speech API are replaced by events. The 3000 ms delay is recorded on each pending timer, and elapsed time is not modelled.
- `useWebSocket` builds a new `AudioContext` on every render (landingpage.jsx:18). It is never closed, and nothing in the model reads it. Where Web Audio is missing, that line throws a TypeError during render. The model has no render step, so it keeps neither the per-render allocation nor that error.
- `convertPCMToAudioBuffer` and `playAudioBuffer` (landingpage.jsx:20-44) are not modelled. Their only call site is commented out, and their output is floating-point audio. Note that `(high << 8) | low` there does no sign extension.
- JSON parsing of inbound frames. A frame arrives already parsed, or as a parse failure. The loose test `is_transcription == false` is modelled by typing the flags as booleans. JavaScript would also treat `0`, `""`, `"0"` or `[]` in that field as false. Numbers inside `msg` are not modelled.
- The socket URL. The page passes a constant (landingpage.jsx:655), so the connection effect's `[url]` dependency (landingpage.jsx:118) never changes, and it runs once per mount.
- Rendering. The product list is drawn only inside the speech panel, which shows only while listening (landingpage.jsx:904). `Inbound.ProductsGuardPasses` models the list's own guard at line 1069 and nothing outside it. Render-time TypeErrors are not modelled: `productsData.map` (line 1096) when a truthy `msg` is not an array, `product.id` (line 1098) when the array holds `null`, and `aiResponse.trim()` (line 1063) when the answer is not a string.
- Inbound.Dispatch: JavaScript cannot convert a JSON object with an own `toString` key to a string, whether at top level or inside an array. The template literal at landingpage.jsx:669, and the `+` at line 684, then throw a TypeError, and the effect fails before any setter runs. `Inbound.Display` gives such an object `[object Object]` as for any other object, so the model dispatches where the page would throw. Modelling the throw would mean modelling React's reaction to an effect error, which is outside this model.
- Outside send requests. The page model accepts only the socket's own events and the unmount cleanup. A `sendTextData` or `sendAudioData` call from anywhere other than the transcript effect does not exist in the page. The hook's send functions are modelled on their own, in `SocketClient`.
- Logging, `alert`, and the status-logging effect (landingpage.jsx:659-664).
- React discards state updates after unmount. The client model keeps updating `isConnected`, `error` and `receivedData` then. The page model ignores all of it: once unmounted it dispatches nothing, sends nothing and accepts no button or recognition events (`Page.UnmountedPageInert`).
- SocketClient.OnError: a browser marks the socket CLOSED just before the `error` event. The model keeps the `readyState` until the `close` event that always follows. A send in between would be modelled as transmitted.
- Each event's state updates are applied together, and the effects run after them. React's batching and the interleaving of events between a render and its effects are not modelled.
- Page.EndSessionEffect: the source schedules a new 2000 ms reset timer on every commit while the session ends. The model has one `EndSessionTimer` event, so an early reset by a stale timer is not modelled.
- The animation and layout state changed by the buttons (`triggerWalk`, `triggerGreeting`, `avatarX`) is rendering glue.
- The microphone stream (`getUserMedia`, `MediaRecorder`) is left out. Its only use of `sendAudioData` is commented out.
- Recognition start/stop/restart wiring and `isRecognizing` (landingpage.jsx:378-520) are browser I/O.
- The `readyToPlay` effect that starts the audio and the greeting clip is left out, as are mesh loading and all 3D rendering.
- LipSync.Frame requires that every index in the morph dictionary is within the influence array. three.js builds both from the same mesh. A plain JavaScript array would grow when written out of range.
- Timestamps and the 0.9 influence are exact reals, not IEEE doubles. Every comparison in the source is between two-decimal literals and the audio clock.
- The unused `currentTime` at avatarmodel.jsx:362.
- A morph target literally named `undefined` would be matched by a missing lookup in JavaScript. The model returns no index instead.
- JSON.stringify escapes lone UTF-16 surrogates. Dafny characters are Unicode scalar values, so the model has none.
- src/components/avatar.jsx, src/App.jsx and vite.config.js are not part of this model: they are a button, routing and build configuration.

=== FILE: common.dfy ===
/** Shared helper datatypes. */
module Common {

  /** A value that may be absent: JavaScript's `null`/`undefined` on one side,
      a present value on the other. */
  datatype Option<+T> = None | Some(value: T)
}

=== FILE: inbound.dfy ===
/** Inbound messages and the page's reaction to them: the effect on
    `receivedData` in `LandingPage` (src/pages/landingpage.jsx:667-688), a
    reducer from the displayed answer, the product list and its visibility,
    and one parsed message, to their new values. */
module Inbound {
  import opened Common

  /** The JSON values a `msg` field can hold. Numbers are not modelled. */
  datatype Value =
    | Null
    | Bool(b: bool)
    | Str(text: string)
    | Arr(items: seq<Value>)
    | Obj(fields: seq<(string, Value)>)

  /** One parsed frame. An object exposes the five fields the page reads
      (None when a field is absent); any other JSON value (`null`, a number,
      a string, an array) has none of them. */
  datatype Parsed =
    | Object(isTranscription: Option<bool>, isText: Option<bool>, isEnd: Option<bool>,
             isJson: Option<bool>, msg: Option<Value>)
    | NonObject

  /** JavaScript truthiness of a possibly absent value. */
  predicate Truthy(v: Option<Value>)
  {
    match v
    case None => false
    case Some(Null) => false
    case Some(Bool(b)) => b
    case Some(Str(t)) => |t| > 0
    case Some(Arr(_)) => true
    case Some(Obj(_)) => true
  }

  /** JavaScript's string conversion, as `prev + ' ' + msg` applies it:
      arrays join their elements with commas (null elements become empty),
      objects become `[object Object]`. */
  function Display(v: Value): string
    decreases v
  {
    match v
    case Null => "null"
    case Bool(b) => if b then "true" else "false"
    case Str(t) => t
    case Arr(items) => JoinItems(items)
    case Obj(_) => "[object Object]"
  }

  function JoinItems(items: seq<Value>): string
    decreases items
  {
    if |items| == 0 then ""
    else
      var first := if items[0].Null? then "" else Display(items[0]);
      if |items| == 1 then first else first + "," + JoinItems(items[1..])
  }

  /** What the page shows in response to the backend: the answer bubble, the
      product list and whether the list is visible. */
  datatype View = View(aiResponse: Value, productsData: Option<Value>, showProducts: bool)

  /** Whether the product list's render guard at landingpage.jsx:1069 passes:
      the flag is set and the data is truthy. (The list is drawn only inside
      the speech panel, which needs listening as well.) */
  predicate ProductsGuardPasses(v: View)
  {
    v.showProducts && Truthy(v.productsData)
  }

  /** The view when the page mounts. */
  const InitialView := View(Str(""), Some(Arr([])), false)

  /** The rules in priority order; the first that applies wins. */
  datatype Rule = Ignore | ReplaceAnswer | ShowProducts | AppendToAnswer

  /** Only objects whose `is_transcription` is (loosely) false are handled. */
  predicate Handled(p: Parsed)
  {
    p.Object? && p.isTranscription == Some(false)
  }

  /** Which rule a message triggers. */
  function RuleFor(p: Parsed): (r: Rule)
    ensures r != Ignore ==> Handled(p)
    ensures r == ReplaceAnswer <==> Handled(p) && p.isText == Some(true) && p.isEnd == Some(true) && Truthy(p.msg)
    ensures r == ShowProducts <==>
              Handled(p) && p.isText == Some(true) && p.isJson == Some(true)
              && !(p.isEnd == Some(true) && Truthy(p.msg))
    ensures r == AppendToAnswer <==>
              Handled(p) && p.isText == Some(true) && Truthy(p.msg)
              && p.isEnd != Some(true) && p.isJson != Some(true)
  {
    if !Handled(p) then Ignore
    else if p.isText == Some(true) && p.isEnd == Some(true) && Truthy(p.msg) then ReplaceAnswer
    else if p.isText == Some(true) && p.isJson == Some(true) then ShowProducts
    else if p.isText == Some(true) && Truthy(p.msg) then AppendToAnswer
    else Ignore
  }

  /** The reducer: the view after the page's effect has seen message `p`. */
  function Dispatch(v: View, p: Parsed): (r: View)
    // Unhandled messages change nothing.
    ensures RuleFor(p) == Ignore ==> r == v
    // A final message replaces the answer with the message itself.
    ensures RuleFor(p) == ReplaceAnswer ==> r == v.(aiResponse := p.msg.value)
    // A JSON message installs the product list (even an absent one) and shows it.
    ensures RuleFor(p) == ShowProducts ==> r == v.(productsData := p.msg, showProducts := true)
    // A streamed word is appended after a space; the earlier answer stays a prefix.
    ensures RuleFor(p) == AppendToAnswer ==>
              r.aiResponse.Str? && r.productsData == v.productsData && r.showProducts == v.showProducts
              && |r.aiResponse.text| == |Display(v.aiResponse)| + 1 + |Display(p.msg.value)|
              && r.aiResponse.text[..|Display(v.aiResponse)|] == Display(v.aiResponse)
              && r.aiResponse.text[|Display(v.aiResponse)|..] == " " + Display(p.msg.value)
    // After a JSON message the render guard passes exactly when its `msg` is truthy.
    ensures RuleFor(p) == ShowProducts ==> (ProductsGuardPasses(r) <==> Truthy(p.msg))
    // Dispatch never clears the `showProducts` flag.
    ensures v.showProducts ==> r.showProducts
  {
    match RuleFor(p)
    case Ignore => v
    case ReplaceAnswer => v.(aiResponse := p.msg.value)
    case ShowProducts => v.(productsData := p.msg, showProducts := true)
    case AppendToAnswer => v.(aiResponse := Str(Display(v.aiResponse) + " " + Display(p.msg.value)))
  }

  /** A streamed word: a handled text message carrying a non-empty string,
      neither final nor JSON. */
  predicate IsWord(p: Parsed)
  {
    Handled(p) && p.isText == Some(true) && p.isEnd != Some(true) && p.isJson != Some(true)
    && p.msg.Some? && p.msg.value.Str? && |p.msg.value.text| > 0
  }

  /** The answer text a run of streamed words builds on top of `prefix`. */
  function Words(prefix: string, ws: seq<Parsed>): string
    requires forall i :: 0 <= i < |ws| ==> IsWord(ws[i])
  {
    if |ws| == 0 then prefix
    else
      var last := ws[|ws| - 1];
      assert IsWord(last);
      Words(prefix, ws[..|ws| - 1]) + " " + last.msg.value.text
  }

  /** Dispatches a sequence of messages in arrival order. */
  function DispatchAll(v: View, ps: seq<Parsed>): View
  {
    if |ps| == 0 then v else Dispatch(DispatchAll(v, ps[..|ps| - 1]), ps[|ps| - 1])
  }

  /** Streaming: a run of words appends each word after a space, in order, and
      leaves the product list alone. */
  lemma {:induction false} StreamedWordsAppend(v: View, ws: seq<Parsed>)
    requires forall i :: 0 <= i < |ws| ==> IsWord(ws[i])
    ensures DispatchAll(v, ws).aiResponse == (if |ws| == 0 then v.aiResponse else Str(Words(Display(v.aiResponse), ws)))
    ensures DispatchAll(v, ws).productsData == v.productsData
    ensures DispatchAll(v, ws).showProducts == v.showProducts
  {
    if |ws| > 0 {
      var init := ws[..|ws| - 1];
      assert forall i :: 0 <= i < |init| ==> IsWord(init[i]) by {
        forall i | 0 <= i < |init| ensures IsWord(init[i]) { assert init[i] == ws[i]; }
      }
      StreamedWordsAppend(v, init);
      var last := ws[|ws| - 1];
      assert RuleFor(last) == AppendToAnswer;
    }
  }

  /** The answer a stream ends with is the final message's, whatever was
      streamed before it. */
  lemma FinalMessageWins(v: View, ws: seq<Parsed>, final: Parsed)
    requires forall i :: 0 <= i < |ws| ==> IsWord(ws[i])
    requires Handled(final) && final.isText == Some(true) && final.isEnd == Some(true) && Truthy(final.msg)
    ensures DispatchAll(v, ws + [final]).aiResponse == final.msg.value
    ensures DispatchAll(v, ws + [final]).productsData == v.productsData
  {
    assert (ws + [final])[..|ws + [final]| - 1] == ws;
    StreamedWordsAppend(v, ws);
  }

  /** Priority: a final message that also claims to be JSON replaces the
      answer and does not touch the product list. */
  lemma FinalBeatsJson(v: View, text: string)
    requires |text| > 0
    ensures var p := Object(Some(false), Some(true), Some(true), Some(true), Some(Str(text)));
            Dispatch(v, p) == v.(aiResponse := Str(text))
  {
  }

  /** A JSON message with an empty `msg` still raises the `showProducts`
      flag, with the empty string as the data; since the data is falsy the
      render guard fails, so a list that was on screen disappears. */
  lemma EmptyJsonHidesProducts(v: View)
    ensures var p := Object(Some(false), Some(true), None, Some(true), Some(Str("")));
            && Dispatch(v, p) == v.(productsData := Some(Str("")), showProducts := true)
            && !ProductsGuardPasses(Dispatch(v, p))
  {
  }
}

=== FILE: json_text.dfy ===
/** The outbound text envelope: how `sendTextData` serialises a transcript
    (`JSON.stringify({ "transcibed_text": text })`), and, as its partner, a
    decoder that reads the envelope back the way the backend's JSON parser
    would. The key keeps the source's spelling; the backend depends on it. */
module JsonText {
  import opened Common

  /** The envelope key, spelled as on the wire. */
  const EnvelopeKey: string := "transcibed_text"

  /** Everything a serialised envelope starts with, up to and including the
      opening quote of the value: `{"transcibed_text":"`. */
  const EnvelopePrefix: string := "{\"" + EnvelopeKey + "\":\""

  /** The value of one hexadecimal digit, either case. */
  function HexValue(c: char): (r: Option<nat>)
    ensures r.Some? ==> r.value < 16
  {
    if '0' <= c <= '9' then Some(c as int - '0' as int)
    else if 'a' <= c <= 'f' then Some(c as int - 'a' as int + 10)
    else if 'A' <= c <= 'F' then Some(c as int - 'A' as int + 10)
    else None
  }

  /** The lower-case hexadecimal digit JSON.stringify writes for `d`. */
  function HexDigit(d: nat): (c: char)
    requires d < 16
    ensures HexValue(c) == Some(d)
    ensures !('A' <= c <= 'F')
  {
    if d < 10 then ('0' as int + d) as char else ('a' as int + (d - 10)) as char
  }

  /** The value of four hexadecimal digits, as in a `\uXXXX` escape. */
  function Hex4(u: string): (r: Option<nat>)
    requires |u| == 4
    ensures r.Some? ==> r.value < 0x1_0000
  {
    match (HexValue(u[0]), HexValue(u[1]), HexValue(u[2]), HexValue(u[3]))
    case (Some(a), Some(b), Some(c), Some(d)) => Some(4096 * a + 256 * b + 16 * c + d)
    case _ => None
  }

  /** How JSON.stringify writes one character inside a string literal: the
      seven short escapes, `\u00xx` for the other control characters, and the
      character itself otherwise. (Dafny characters are Unicode scalar values,
      so the lone-surrogate escape of JSON.stringify has no counterpart.) */
  function QuoteChar(c: char): (r: string)
    ensures 1 <= |r|
    ensures r[0] != '\"'
    ensures forall i :: 0 <= i < |r| ==> (r[i] as int) >= 0x20
  {
    if c == '\"' then ['\\', '\"']
    else if c == '\\' then ['\\', '\\']
    else if c as int == 0x08 then ['\\', 'b']
    else if c as int == 0x0C then ['\\', 'f']
    else if c == '\n' then ['\\', 'n']
    else if c == '\r' then ['\\', 'r']
    else if c == '\t' then ['\\', 't']
    else if (c as int) < 0x20 then ['\\', 'u', '0', '0', HexDigit(c as int / 16), HexDigit(c as int % 16)]
    else [c]
  }

  /** The body of a JSON string literal for `s`, without the quotes. */
  function QuoteBody(s: string): (r: string)
    ensures forall i :: 0 <= i < |r| ==> (r[i] as int) >= 0x20
  {
    if |s| == 0 then [] else QuoteChar(s[0]) + QuoteBody(s[1..])
  }

  /** The exact text frame `sendTextData(text)` transmits:
      `{"transcibed_text":"<text, escaped>"}` with no white space. */
  function Envelope(text: string): string
  {
    EnvelopePrefix + QuoteBody(text) + "\"}"
  }

  /** Reads the character an escape denotes; `u` is the text after the
      backslash. Returns the character and how many characters of `u` the
      escape used. Surrogate code points are refused. */
  function Unescape(u: string): (r: Option<(char, nat)>)
    ensures r.Some? ==> 1 <= r.value.1 <= |u|
  {
    if |u| == 0 then None
    else if u[0] == '\"' then Some(('\"', 1))
    else if u[0] == '\\' then Some(('\\', 1))
    else if u[0] == '/' then Some(('/', 1))
    else if u[0] == 'b' then Some((0x08 as char, 1))
    else if u[0] == 'f' then Some((0x0C as char, 1))
    else if u[0] == 'n' then Some(('\n', 1))
    else if u[0] == 'r' then Some(('\r', 1))
    else if u[0] == 't' then Some(('\t', 1))
    else if u[0] == 'u' && |u| >= 5 then
      match Hex4(u[1..5])
      case Some(v) => if 0xD800 <= v <= 0xDFFF then None else Some((v as char, 5))
      case None => None
    else None
  }

  /** Parses the body of a JSON string literal up to its closing quote.
      Returns the decoded text and whatever follows the closing quote; refuses
      an unterminated literal, a bad escape and a raw control character. */
  function UnquoteBody(t: string): (r: Option<(string, string)>)
    decreases |t|
  {
    if |t| == 0 then None
    else if t[0] == '\"' then Some(([], t[1..]))
    else if t[0] == '\\' then
      match Unescape(t[1..])
      case None => None
      case Some((c, n)) =>
        match UnquoteBody(t[1 + n..])
        case None => None
        case Some((s, rest)) => Some(([c] + s, rest))
    else if (t[0] as int) < 0x20 then None
    else
      match UnquoteBody(t[1..])
      case None => None
      case Some((s, rest)) => Some(([t[0]] + s, rest))
  }

  /** Reads a text frame as an envelope: the text it carries, or None when the
      frame is not exactly one envelope. */
  function DecodeEnvelope(frame: string): (r: Option<string>)
  {
    if |frame| < |EnvelopePrefix| || frame[..|EnvelopePrefix|] != EnvelopePrefix then None
    else
      match UnquoteBody(frame[|EnvelopePrefix|..])
      case Some((s, rest)) => if rest == "}" then Some(s) else None
      case None => None
  }

  /** Parsing one quoted character consumes exactly that character's quoting. */
  lemma UnquoteQuoteChar(c: char, t: string)
    ensures UnquoteBody(QuoteChar(c) + t) ==
            match UnquoteBody(t)
            case None => None
            case Some((s, rest)) => Some(([c] + s, rest))
  {
    var q := QuoteChar(c);
    var w := q + t;
    if |q| == 1 {
      assert w[0] == c && w[1..] == t;
    } else if |q| == 2 {
      assert w[0] == '\\' && w[1..] == [q[1]] + t;
      assert w[1 + 1..] == t;
    } else {
      assert w[0] == '\\' && w[1..] == q[1..] + t;
      var hi, lo := c as int / 16, c as int % 16;
      assert w[2..6] == ['0', '0', HexDigit(hi), HexDigit(lo)];
      assert Hex4(w[2..6]) == Some(c as int);
      assert (c as int) as char == c;
      assert w[1 + 5..] == t;
    }
  }

  /** Quoting a text and parsing it back yields the text and exactly what
      followed the closing quote. */
  lemma {:induction false} UnquoteQuoteBody(s: string, rest: string)
    ensures UnquoteBody(QuoteBody(s) + ['\"'] + rest) == Some((s, rest))
    decreases |s|
  {
    if |s| == 0 {
      assert QuoteBody(s) + ['\"'] + rest == ['\"'] + rest;
      assert (['\"'] + rest)[1..] == rest;
    } else {
      UnquoteBodyCons(s, rest);
    }
  }

  /** The inductive step of UnquoteQuoteBody, split off to keep each proof small. */
  lemma {:induction false} UnquoteBodyCons(s: string, rest: string)
    requires |s| > 0
    ensures UnquoteBody(QuoteBody(s) + ['\"'] + rest) == Some((s, rest))
    decreases |s|, 0
  {
    var tail := QuoteBody(s[1..]) + ['\"'] + rest;
    assert QuoteBody(s) + ['\"'] + rest == QuoteChar(s[0]) + tail;
    UnquoteQuoteBody(s[1..], rest);
    UnquoteQuoteChar(s[0], tail);
    assert [s[0]] + s[1..] == s;
  }

  /** The backend reads back exactly the text that was sent: decoding an
      envelope inverts building it. */
  lemma EnvelopeRoundTrip(text: string)
    ensures DecodeEnvelope(Envelope(text)) == Some(text)
  {
    var frame := Envelope(text);
    assert frame[..|EnvelopePrefix|] == EnvelopePrefix;
    assert frame[|EnvelopePrefix|..] == QuoteBody(text) + ['\"'] + "}";
    UnquoteQuoteBody(text, "}");
  }

  /** The frame holds no raw control character: JSON forbids them inside
      strings (section 7 of RFC 8259), and the key and punctuation around
      the quoted text have none either. */
  lemma EnvelopeHasNoControlCharacters(text: string)
    ensures forall i :: 0 <= i < |Envelope(text)| ==> (Envelope(text)[i] as int) >= 0x20
  {
  }

  /** Distinct transcripts give distinct frames. */
  lemma EnvelopeInjective(a: string, b: string)
    requires Envelope(a) == Envelope(b)
    ensures a == b
  {
    EnvelopeRoundTrip(a);
    EnvelopeRoundTrip(b);
  }
}

=== FILE: lip_sync.dfy ===
/** The per-frame lip-sync step of `Avatar` (src/components/avatarmodel.jsx:352-376):
    find the first timeline interval that contains the audio's current
    time, map its label through the two tables to a morph target, and
    raise that target to 0.9 with every other influence at 0. */
module LipSync {
  import opened Common
  import Visemes
  import opened PhonemeTimeline

  /** The animation clip the avatar plays. */
  datatype Animation = Idle | Greeting

  /** What the frame step reads from the audio element. */
  datatype Audio = Audio(currentTime: real, paused: bool, ended: bool)

  /** The avatar's frame state: its animation, the face mesh's morph-target
      influences (None while no mesh with morph targets is held), the mesh's
      name-to-index dictionary, and the lip-sync start time (None while
      unset). */
  datatype Avatar = Avatar(
    animation: Animation,
    influences: Option<seq<real>>,
    morphDict: map<string, nat>,
    startTime: Option<real>)

  /** The weight given to the active morph target. */
  const Raised: real := 0.9

  /** Both ends of an interval are inclusive. */
  predicate Contains(iv: Interval, t: real)
  {
    iv.start <= t && t <= iv.end
  }

  /** `find` over the intervals from index `i` on. */
  function FindFrom(s: seq<Interval>, t: real, i: nat): (r: Option<nat>)
    requires i <= |s|
    ensures r.Some? ==> i <= r.value < |s| && Contains(s[r.value], t)
                        && forall j :: i <= j < r.value ==> !Contains(s[j], t)
    ensures r.None? ==> forall j :: i <= j < |s| ==> !Contains(s[j], t)
    decreases |s| - i
  {
    if i == |s| then None
    else if Contains(s[i], t) then Some(i)
    else FindFrom(s, t, i + 1)
  }

  /** The index of the first interval, in sequence order, that contains `t`. */
  function FindActive(s: seq<Interval>, t: real): (r: Option<nat>)
    ensures r.Some? ==> r.value < |s| && Contains(s[r.value], t)
                        && forall j :: 0 <= j < r.value ==> !Contains(s[j], t)
    ensures r.None? <==> forall j :: 0 <= j < |s| ==> !Contains(s[j], t)
  {
    FindFrom(s, t, 0)
  }

  /** In an ordered contiguous timeline an earlier interval ends no later
      than a later one starts. */
  lemma {:induction false} EarlierEndsFirst(s: seq<Interval>, j: nat, i: nat)
    requires Ordered(s) && Contiguous(s)
    requires j < i < |s|
    ensures s[j].end <= s[i].start
    decreases i - j
  {
    if j + 1 < i {
      EarlierEndsFirst(s, j, i - 1);
      assert s[i - 1].end == s[i].start;
    }
  }

  /** At a boundary shared by two intervals the earlier one is active. */
  lemma SharedBoundaryEarlierWins(s: seq<Interval>, i: nat)
    requires Ordered(s) && Contiguous(s)
    requires i + 1 < |s|
    ensures FindActive(s, s[i].end) == Some(i)
    ensures FindActive(s, s[i + 1].start) == Some(i)
  {
    forall j | 0 <= j < i
      ensures !Contains(s[j], s[i].end)
    {
      EarlierEndsFirst(s, j, i);
    }
  }

  /** Every interval lies within the timeline's first start and last end. */
  lemma WithinSpan(s: seq<Interval>, i: nat)
    requires Ordered(s) && Contiguous(s)
    requires i < |s|
    ensures s[0].start <= s[i].start && s[i].end <= s[|s| - 1].end
  {
    if 0 < i {
      EarlierEndsFirst(s, 0, i);
    }
    if i < |s| - 1 {
      EarlierEndsFirst(s, i, |s| - 1);
    }
  }

  /** Some interval from `i` on contains any time between the start of
      interval `i` and the timeline's last end. */
  lemma {:induction false} CoveredFrom(s: seq<Interval>, t: real, i: nat)
    requires Ordered(s) && Contiguous(s)
    requires i < |s|
    requires s[i].start <= t <= s[|s| - 1].end
    ensures exists j :: i <= j < |s| && Contains(s[j], t)
    decreases |s| - i
  {
    if t <= s[i].end {
      assert Contains(s[i], t);
    } else {
      assert i + 1 < |s|;
      assert s[i].end == s[i + 1].start;
      CoveredFrom(s, t, i + 1);
    }
  }

  /** Contiguity leaves no gaps: any time within the span finds an interval. */
  lemma Coverage(s: seq<Interval>, t: real)
    requires Ordered(s) && Contiguous(s) && |s| > 0
    requires s[0].start <= t <= s[|s| - 1].end
    ensures FindActive(s, t).Some?
  {
    CoveredFrom(s, t, 0);
  }

  /** Every time in [0.00, 35.44] finds an interval of the timeline, and no
      time outside it does. */
  lemma TimelineCoverage(t: real)
    ensures FindActive(Timeline, t).Some? <==> 0.00 <= t <= 35.44
  {
    TimelineWellFormed();
    if 0.00 <= t <= 35.44 {
      Coverage(Timeline, t);
    } else {
      forall j | 0 <= j < |Timeline|
        ensures !Contains(Timeline[j], t)
      {
        WithinSpan(Timeline, j);
      }
    }
  }

  /** At each of the timeline's 208 inner boundaries the earlier interval wins. */
  lemma TimelineBoundaries(i: nat)
    requires i + 1 < |Timeline|
    ensures FindActive(Timeline, Timeline[i].end) == Some(i)
  {
    TimelineWellFormed();
    SharedBoundaryEarlierWins(Timeline, i);
  }

  /** The influence index a frame at time `t` raises over the timeline `s`,
      if any: the mesh's index for the morph target of the active interval's
      label. A label without a morph target, or a target the mesh lacks,
      raises nothing. */
  function TargetIndex(s: seq<Interval>, morphDict: map<string, nat>, t: real): (r: Option<nat>)
    ensures FindActive(s, t).None? ==> r.None?
    ensures FindActive(s, t).Some? ==>
              var phoneme := s[FindActive(s, t).value].value;
              && (r.Some? <==> Visemes.MorphFor(phoneme).Some? && Visemes.MorphFor(phoneme).value in morphDict)
              && (r.Some? ==> r.value == morphDict[Visemes.MorphFor(phoneme).value])
  {
    match FindActive(s, t)
    case None => None
    case Some(k) =>
      match Visemes.MorphFor(s[k].value)
      case None => None
      case Some(name) => if name in morphDict then Some(morphDict[name]) else None
  }

  /** The mesh's dictionary only names influences the mesh has; three.js
      builds both from the same morph attributes. */
  predicate IndicesInRange(a: Avatar)
  {
    a.influences.Some? ==> forall name :: name in a.morphDict ==> a.morphDict[name] < |a.influences.value|
  }

  /** The guard of avatarmodel.jsx:360: a mesh with influences is held and the
      start time is set (JavaScript treats a start time of 0 as unset). */
  predicate Ready(a: Avatar)
  {
    a.influences.Some? && a.startTime.Some? && a.startTime.value != 0.0
  }

  /** The influence vector after the frame: all zero but the raised index. */
  function Pose(n: nat, raised: Option<nat>): (r: seq<real>)
    ensures |r| == n
  {
    seq(n, i requires 0 <= i < n => if raised == Some(i) then Raised else 0.0)
  }

  /** One frame. Paused or ended audio switches to the idle clip and leaves
      the influences as they were; an avatar that is not ready is left alone;
      otherwise the influences become the pose for the current audio time. */
  function Frame(a: Avatar, audio: Audio): (r: Avatar)
    requires IndicesInRange(a)
    ensures audio.paused || audio.ended ==> r == a.(animation := Idle)
    ensures !(audio.paused || audio.ended) && !Ready(a) ==> r == a
    ensures !(audio.paused || audio.ended) && Ready(a) ==>
              && r.(influences := a.influences) == a
              && r.influences.Some? && |r.influences.value| == |a.influences.value|
              && (forall i :: 0 <= i < |r.influences.value| ==>
                    r.influences.value[i] == (if TargetIndex(Timeline, a.morphDict, audio.currentTime) == Some(i) then Raised else 0.0))
  {
    if audio.paused || audio.ended then a.(animation := Idle)
    else if !Ready(a) then a
    else a.(influences := Some(Pose(|a.influences.value|, TargetIndex(Timeline, a.morphDict, audio.currentTime))))
  }

  /** On a playing frame every influence is 0 or 0.9, and at most one is 0.9. */
  lemma AtMostOneRaised(a: Avatar, audio: Audio)
    requires IndicesInRange(a) && Ready(a) && !audio.paused && !audio.ended
    ensures var w := Frame(a, audio).influences.value;
            && (forall i :: 0 <= i < |w| ==> w[i] == 0.0 || w[i] == Raised)
            && (forall i, j :: 0 <= i < |w| && 0 <= j < |w| && w[i] != 0.0 && w[j] != 0.0 ==> i == j)
  {
  }

  /** Outside [0.00, 35.44] no interval is active and every influence is 0. */
  lemma SilentOutsideTimeline(a: Avatar, audio: Audio)
    requires IndicesInRange(a) && Ready(a) && !audio.paused && !audio.ended
    requires audio.currentTime < 0.00 || audio.currentTime > 35.44
    ensures forall i :: 0 <= i < |Frame(a, audio).influences.value| ==> Frame(a, audio).influences.value[i] == 0.0
  {
    TimelineCoverage(audio.currentTime);
  }

  /** A mesh without any of the five driven targets stays silent. */
  lemma SilentWithoutTargets(a: Avatar, audio: Audio)
    requires IndicesInRange(a) && Ready(a) && !audio.paused && !audio.ended
    requires forall name :: name in Visemes.DrivenMorphs ==> name !in a.morphDict
    ensures forall i :: 0 <= i < |Frame(a, audio).influences.value| ==> Frame(a, audio).influences.value[i] == 0.0
  {
    var t := audio.currentTime;
    if FindActive(Timeline, t).Some? {
      Visemes.MorphForRange(Timeline[FindActive(Timeline, t).value].value);
    }
  }

  /** Within [0.00, 35.44], on a mesh that has all five driven targets,
      exactly one influence is raised: the active label's target. */
  lemma ExactlyOneRaisedWithinTimeline(a: Avatar, audio: Audio)
    requires IndicesInRange(a) && Ready(a) && !audio.paused && !audio.ended
    requires 0.00 <= audio.currentTime <= 35.44
    requires forall name :: name in Visemes.DrivenMorphs ==> name in a.morphDict
    ensures var w := Frame(a, audio).influences.value;
            && (exists i :: 0 <= i < |w| && w[i] == Raised)
            && (forall i, j :: 0 <= i < |w| && 0 <= j < |w| && w[i] == Raised && w[j] == Raised ==> i == j)
  {
    AtMostOneRaised(a, audio);
    var t := audio.currentTime;
    TimelineWellFormed();
    TimelineCoverage(t);
    var k := FindActive(Timeline, t).value;
    Visemes.MorphForRange(Timeline[k].value);
    var i := TargetIndex(Timeline, a.morphDict, t).value;
    assert Frame(a, audio).influences.value[i] == Raised;
  }
}

=== FILE: page.dfy ===
/** `LandingPage` (src/pages/landingpage.jsx:636-788) as a session state
    machine: the socket client, the speech state, the last transcript sent,
    the answer view and the end-of-session flag, changed by network events,
    recognition results, the microphone button and the end-session button
    ("Force End", landingpage.jsx:840-845, which sits in a debug panel the
    page hides with `display: "none"` at line 827, so users of the shipped
    page cannot press it).

    After every event the page re-renders and its effects run, in the order
    they are declared:
    - the transcript effect (landingpage.jsx:728-738) lists `sendTextData`
      among its dependencies, a function the hook re-creates on every
      render, so it runs after every commit;
    - the end-session effect (landingpage.jsx:741-755) lists `stopListening`,
      likewise re-created, so while `shouldEndSession` is set every commit
      stops listening again.
    `Settle` applies both. */
module Page {
  import opened Common
  import JsonText
  import SocketClient
  import Inbound
  import SpeechSession

  datatype Page = Page(
    client: SocketClient.Client,
    speech: SpeechSession.Speech,
    lastSent: string,               // lastSentTranscriptRef.current
    view: Inbound.View,
    shouldEndSession: bool)

  datatype PageEvent =
    | Network(e: SocketClient.Event)
    | Recognized(ev: SpeechSession.ResultEvent)
    | MicClick
    | EndSession
    | EndSessionTimer             // the 2000 ms timer of the end-session effect

  /** The transcript effect sends the current transcript exactly when it is
      non-empty and differs from the last one sent. */
  predicate ShouldSend(p: Page)
  {
    p.speech.transcript != "" && p.speech.transcript != p.lastSent
  }

  /** A page whose effects have all run. */
  predicate Settled(p: Page)
  {
    && !ShouldSend(p)
    && (p.shouldEndSession ==> !p.speech.isListening && p.speech.transcript == "" && p.speech.interim == "")
  }

  /** The transcript effect. The last-sent transcript is updated whether or
      not the socket was open, so a transcript produced while disconnected
      counts as sent although no frame left. */
  function SendTranscript(p: Page): (r: Page)
    ensures ShouldSend(p) ==>
              r.lastSent == p.speech.transcript
              && r.client == SocketClient.SendTextData(p.client, p.speech.transcript)
              && r.speech == p.speech && r.view == p.view && r.shouldEndSession == p.shouldEndSession
    ensures !ShouldSend(p) ==> r == p
    ensures !ShouldSend(r)
    ensures |r.client.sent| == |p.client.sent| + (if ShouldSend(p) && p.client.socket == Some(SocketClient.Open) then 1 else 0)
  {
    if ShouldSend(p) then
      p.(client := SocketClient.SendTextData(p.client, p.speech.transcript), lastSent := p.speech.transcript)
    else p
  }

  /** The end-session effect: while the flag is set, stop listening. */
  function EndSessionEffect(p: Page): (r: Page)
    ensures p.shouldEndSession ==> !r.speech.isListening && r.speech.transcript == "" && r.speech.interim == ""
    ensures !p.shouldEndSession ==> r == p
    ensures r.(speech := p.speech) == p
  {
    if p.shouldEndSession then p.(speech := SpeechSession.StopListening(p.speech)) else p
  }

  /** Both effects, in declaration order. A second round finds nothing to
      do, so the page is then at rest. */
  function Settle(p: Page): (r: Page)
    ensures Settled(r)
    ensures r.client == SendTranscript(p).client && r.lastSent == SendTranscript(p).lastSent
    ensures r.view == p.view && r.shouldEndSession == p.shouldEndSession
  {
    EndSessionEffect(SendTranscript(p))
  }

  /** The page right after mounting. */
  function Mount(outcome: SocketClient.ConnectOutcome): Page
  {
    Settle(Page(SocketClient.Mount(outcome), SpeechSession.Idle, "", Inbound.InitialView, false))
  }

  /** `handleMicClick` (landingpage.jsx:761-781). Stopping clears the
      last-sent transcript, the answer and the product list's visibility;
      starting clears only the answer. */
  function OnMicClick(p: Page): (r: Page)
    ensures p.speech.isListening ==>
              !r.speech.isListening && r.lastSent == "" && !r.view.showProducts
              && r.view.aiResponse == Inbound.Str("")
    ensures !p.speech.isListening ==>
              r.speech.isListening && r.lastSent == p.lastSent && r.view.showProducts == p.view.showProducts
              && r.view.aiResponse == Inbound.Str("")
    ensures r.speech.transcript == "" && r.speech.interim == ""
    ensures r.client == p.client && r.shouldEndSession == p.shouldEndSession
    ensures r.view.productsData == p.view.productsData
  {
    if p.speech.isListening then
      p.(speech := SpeechSession.StopListening(p.speech), lastSent := "",
         view := p.view.(showProducts := false, aiResponse := Inbound.Str("")))
    else
      p.(speech := SpeechSession.StartListening(p.speech), view := p.view.(aiResponse := Inbound.Str("")))
  }

  /** `endSession` (landingpage.jsx:784-788): raise the flag, hide the
      products and clear the answer. The last-sent transcript is kept. */
  function OnEndSession(p: Page): (r: Page)
    ensures r.shouldEndSession && !r.view.showProducts && r.view.aiResponse == Inbound.Str("")
    ensures r.lastSent == p.lastSent && r.speech == p.speech && r.client == p.client
    ensures r.view.productsData == p.view.productsData
  {
    p.(shouldEndSession := true, view := p.view.(showProducts := false, aiResponse := Inbound.Str("")))
  }

  /** A network event: the client steps, and a message it delivers goes
      through the page's dispatch effect. */
  function OnNetwork(p: Page, e: SocketClient.Event): (r: Page)
    ensures r.client == SocketClient.Step(p.client, e)
    ensures e.Message? && SocketClient.Delivered(p.client, e.parsed) ==>
              r.view == Inbound.Dispatch(p.view, e.parsed.value)
    ensures !(e.Message? && SocketClient.Delivered(p.client, e.parsed)) ==> r.view == p.view
    ensures r.speech == p.speech && r.lastSent == p.lastSent && r.shouldEndSession == p.shouldEndSession
  {
    var view := if e.Message? && SocketClient.Delivered(p.client, e.parsed)
                then Inbound.Dispatch(p.view, e.parsed.value) else p.view;
    p.(client := SocketClient.Step(p.client, e), view := view)
  }

  /** The events a socket produces on its own, which keep arriving after the
      page is gone. */
  predicate FromSocket(ne: SocketClient.Event)
  {
    ne.OpenEvent? || ne.CloseEvent? || ne.ErrorEvent? || ne.Message? || ne.TimerFires?
  }

  /** The network events the page can meet: the socket's own, and the
      unmount cleanup. The page never calls `sendTextData` other than from
      its transcript effect, and its one `sendAudioData` call is commented
      out (landingpage.jsx:709), so outside send requests do not reach it. */
  predicate ReachesPage(ne: SocketClient.Event)
  {
    FromSocket(ne) || ne.Unmount?
  }

  /** A mounted page's handler for one event, before the effects run. */
  function Handle(p: Page, e: PageEvent): (r: Page)
    ensures r.client.sent == p.client.sent
  {
    match e
    case Network(ne) => if ReachesPage(ne) then OnNetwork(p, ne) else p
    case Recognized(ev) => p.(speech := SpeechSession.HandleResult(p.speech, ev))
    case MicClick => OnMicClick(p)
    case EndSession => OnEndSession(p)
    case EndSessionTimer => p.(shouldEndSession := false)
  }

  /** One event, then the effects. Once the page has unmounted it has no
      handlers, effects or recognition left (landingpage.jsx:398-407 and
      511-518 stop and detach recognition): only the socket's own events
      still move the client, and nothing else changes. */
  function Step(p: Page, e: PageEvent): (r: Page)
    ensures p.client.mounted ==> Settled(r)
    ensures !p.client.mounted ==>
              r == p.(client := r.client) && !r.client.mounted && r.client.sent == p.client.sent
              && (e.Network? && FromSocket(e.e) ==> r.client == SocketClient.Step(p.client, e.e))
              && (!(e.Network? && FromSocket(e.e)) ==> r == p)
  {
    if !p.client.mounted then
      if e.Network? && FromSocket(e.e) then p.(client := SocketClient.Step(p.client, e.e)) else p
    else Settle(Handle(p, e))
  }

  /** A run of page events, in order. */
  function Run(p: Page, es: seq<PageEvent>): Page
  {
    if |es| == 0 then p else Step(Run(p, es[..|es| - 1]), es[|es| - 1])
  }

  /** Every page reachable from mount is settled: the effects leave nothing
      pending, whatever happens, before or after unmount. */
  lemma {:induction false} ReachableSettled(outcome: SocketClient.ConnectOutcome, es: seq<PageEvent>)
    ensures Settled(Run(Mount(outcome), es))
  {
    if |es| > 0 {
      ReachableSettled(outcome, es[..|es| - 1]);
    }
  }

  /** A text that the recogniser produced as final: non-empty and ending in
      the space `handleResult` appends to each final piece. */
  predicate FinalShaped(t: string)
  {
    |t| > 0 && t[|t| - 1] == ' '
  }

  /** A frame the page may send: a text envelope that decodes to a final
      recognised text. */
  predicate CarriesTranscript(f: SocketClient.Frame)
  {
    f.TextFrame? && JsonText.DecodeEnvelope(f.text).Some? && FinalShaped(JsonText.DecodeEnvelope(f.text).value)
  }

  /** What every reachable page keeps: its transcript is empty or final, and
      every frame sent so far carries a final recognised text. */
  predicate SendsOnlyTranscripts(p: Page)
  {
    && (p.speech.transcript == "" || FinalShaped(p.speech.transcript))
    && forall i :: 0 <= i < |p.client.sent| ==> CarriesTranscript(p.client.sent[i])
  }

  /** Handling an event sends nothing and leaves the transcript empty or
      final. */
  lemma HandleSendsOnlyTranscripts(p: Page, e: PageEvent)
    requires SendsOnlyTranscripts(p)
    ensures SendsOnlyTranscripts(Handle(p, e))
  {
  }

  /** The effects keep `SendsOnlyTranscripts`: the one frame the transcript
      effect may add is the envelope of the final transcript. */
  lemma SettleSendsOnlyTranscripts(p: Page)
    requires SendsOnlyTranscripts(p)
    ensures SendsOnlyTranscripts(Settle(p))
  {
    var sent := SendTranscript(p);
    if ShouldSend(p) && p.client.socket == Some(SocketClient.Open) {
      var n := |p.client.sent|;
      forall i | 0 <= i < n
        ensures sent.client.sent[i] == p.client.sent[i]
      {
        assert sent.client.sent[i] == sent.client.sent[..n][i];
      }
    }
  }

  /** One step keeps `SendsOnlyTranscripts`. */
  lemma StepSendsOnlyTranscripts(p: Page, e: PageEvent)
    requires SendsOnlyTranscripts(p)
    ensures SendsOnlyTranscripts(Step(p, e))
  {
    if p.client.mounted {
      HandleSendsOnlyTranscripts(p, e);
      SettleSendsOnlyTranscripts(Handle(p, e));
    }
  }

  /** Every frame a page sends, over any run from mount, is the envelope of
      a final recognised text: nothing else ever leaves the page. */
  lemma {:induction false} PageSendsOnlyTranscripts(outcome: SocketClient.ConnectOutcome, es: seq<PageEvent>)
    ensures SendsOnlyTranscripts(Run(Mount(outcome), es))
  {
    if |es| > 0 {
      PageSendsOnlyTranscripts(outcome, es[..|es| - 1]);
      StepSendsOnlyTranscripts(Run(Mount(outcome), es[..|es| - 1]), es[|es| - 1]);
    }
  }

  /** After unmount the page is inert: whatever events follow, no frame is
      sent and the speech state, the last-sent transcript, the view and the
      end-of-session flag stay as they were. */
  lemma {:induction false} UnmountedPageInert(p: Page, es: seq<PageEvent>)
    requires !p.client.mounted
    ensures var r := Run(p, es);
            && r.client.sent == p.client.sent && !r.client.mounted
            && r.speech == p.speech && r.lastSent == p.lastSent
            && r.view == p.view && r.shouldEndSession == p.shouldEndSession
  {
    if |es| > 0 {
      UnmountedPageInert(p, es[..|es| - 1]);
    }
  }

  /** Settling a settled page changes nothing; in particular settling twice
      is settling once. */
  lemma SettledIsFixpoint(p: Page)
    requires Settled(p)
    ensures Settle(p) == p
  {
  }

  /** Whether a recognition result makes the page send a frame: the page is
      mounted, the new transcript is non-empty and differs from the last one
      sent, and the socket is open. The last-sent transcript ignores the
      socket. */
  lemma RecognizedSendsIff(p: Page, ev: SpeechSession.ResultEvent)
    ensures var t := SpeechSession.HandleResult(p.speech, ev).transcript;
            var r := Step(p, Recognized(ev));
            && |r.client.sent| == |p.client.sent| + (if p.client.mounted && t != "" && t != p.lastSent && p.client.socket == Some(SocketClient.Open) then 1 else 0)
            && r.lastSent == (if p.client.mounted && t != "" && t != p.lastSent then t else p.lastSent)
  {
  }

  /** The same recognition result delivered twice sends at most once: the
      second delivery finds its transcript already marked as sent. */
  lemma RepeatedResultSendsOnce(p: Page, ev: SpeechSession.ResultEvent)
    ensures var once := Step(p, Recognized(ev));
            Step(once, Recognized(ev)).client.sent == once.client.sent
  {
  }

  /** A transcript recognised while the socket is not open is lost: no frame
      leaves, yet it is recorded as sent, so if the socket then opens and the
      same result is recognised next, nothing is sent either. */
  lemma TranscriptLostWhileDisconnected(p: Page, ev: SpeechSession.ResultEvent)
    requires p.client.mounted && p.client.socket != Some(SocketClient.Open)
    requires SpeechSession.HasFinal(SpeechSession.Considered(ev))
    ensures var r := Step(p, Recognized(ev));
            r.client.sent == p.client.sent
            && r.lastSent == SpeechSession.FinalText(SpeechSession.Considered(ev))
    ensures var reopened := Step(Step(p, Recognized(ev)), Network(SocketClient.OpenEvent));
            Step(reopened, Recognized(ev)).client.sent == p.client.sent
  {
  }

  /** Speaking before the first connection opens: from mount, starting the
      microphone and recognising a final result sends no frame, yet marks
      the text as sent. */
  lemma FirstTranscriptBeforeOpenLost(outcome: SocketClient.ConnectOutcome, ev: SpeechSession.ResultEvent)
    requires SpeechSession.HasFinal(SpeechSession.Considered(ev))
    ensures var r := Step(Step(Mount(outcome), MicClick), Recognized(ev));
            r.client.sent == [] && r.speech.isListening
            && r.lastSent == SpeechSession.FinalText(SpeechSession.Considered(ev))
  {
  }

  /** Stopping with the microphone button forgets the last transcript sent:
      after stop and start, recognising that same text again sends it, as
      one envelope frame carrying it. */
  lemma MicStopAllowsResend(p: Page, ev: SpeechSession.ResultEvent)
    requires p.client.mounted && p.speech.isListening
    requires p.client.socket == Some(SocketClient.Open)
    requires SpeechSession.HasFinal(SpeechSession.Considered(ev))
    ensures var r := Step(Step(Step(p, MicClick), MicClick), Recognized(ev));
            |r.client.sent| == |p.client.sent| + 1
            && r.client.sent[|p.client.sent|] == SocketClient.TextFrame(
                 JsonText.Envelope(SpeechSession.FinalText(SpeechSession.Considered(ev))))
  {
  }

  /** Ending the session through the end-session button keeps the last
      transcript sent: after the session ends and the microphone is started
      again, recognising that same text sends nothing. */
  lemma EndSessionKeepsLastSent(p: Page, ev: SpeechSession.ResultEvent)
    requires p.client.mounted && Settled(p)
    requires p.lastSent == SpeechSession.FinalText(SpeechSession.Considered(ev))
    ensures var ended := Step(Step(p, EndSession), EndSessionTimer);
            var r := Step(Step(ended, MicClick), Recognized(ev));
            r.speech.isListening && r.client.sent == p.client.sent
  {
  }

  /** While the session is ending, pressing the microphone to start is
      undone by the end-session effect in the same commit; only the cleared
      answer remains. */
  lemma MicStartUndoneWhileEnding(p: Page)
    requires p.client.mounted && p.shouldEndSession && !p.speech.isListening
    ensures var r := Step(p, MicClick);
            !r.speech.isListening && r.view.aiResponse == Inbound.Str("")
  {
  }

  /** A frame that does not parse changes nothing on a settled page. */
  lemma UnparsableFrameIgnored(p: Page)
    requires Settled(p)
    ensures Step(p, Network(SocketClient.Message(None))) == p
  {
  }
}

=== FILE: phoneme_timeline.dfy ===
/** The phoneme timeline `phonemeSequence` of
    src/components/avatarmodel.jsx:100-310, entry for entry, and the facts the
    frame step relies on, proved over the constant rather than assumed: every
    label has a viseme, every interval is non-empty, and each interval ends
    where the next begins.

    The 209 entries are written as eleven consecutive parts of 19 so that the
    facts can be checked part by part; `Timeline` is their concatenation. */
module PhonemeTimeline {
  import Visemes

  /** One timeline entry; times are seconds of audio. */
  datatype Interval = Interval(start: real, end: real, value: string)

  /** Every interval starts before it ends. */
  ghost predicate Ordered(s: seq<Interval>)
  {
    forall i :: 0 <= i < |s| ==> s[i].start < s[i].end
  }

  /** Each interval ends exactly where the next one starts. */
  ghost predicate Contiguous(s: seq<Interval>)
  {
    forall i :: 0 <= i < |s| - 1 ==> s[i].end == s[i + 1].start
  }

  /** Every label is a key of `phonemeToViseme`. */
  ghost predicate Labelled(s: seq<Interval>)
  {
    forall i :: 0 <= i < |s| ==> s[i].value in Visemes.PhonemeToViseme
  }

  /** A non-empty, ordered, contiguous, fully labelled timeline. */
  ghost predicate WellFormed(s: seq<Interval>)
  {
    |s| > 0 && Ordered(s) && Contiguous(s) && Labelled(s)
  }
  const Part0: seq<Interval> := [
    Interval(0.00, 0.18, "X"),
    Interval(0.18, 0.35, "D"),
    Interval(0.35, 0.39, "C"),
    Interval(0.39, 0.73, "B"),
    Interval(0.73, 0.80, "C"),
    Interval(0.80, 0.86, "B"),
    Interval(0.86, 0.94, "A"),
    Interval(0.94, 1.01, "B"),
    Interval(1.01, 1.07, "C"),
    Interval(1.07, 1.28, "B"),
    Interval(1.28, 1.35, "F"),
    Interval(1.35, 1.43, "A"),
    Interval(1.43, 1.59, "E"),
    Interval(1.59, 1.73, "B"),
    Interval(1.73, 1.80, "C"),
    Interval(1.80, 1.88, "A"),
    Interval(1.88, 2.01, "B"),
    Interval(2.01, 2.15, "C"),
    Interval(2.15, 2.22, "B")
  ]
  const Part1: seq<Interval> := [
    Interval(2.22, 2.36, "C"),
    Interval(2.36, 2.43, "B"),
    Interval(2.43, 2.50, "C"),
    Interval(2.50, 2.85, "B"),
    Interval(2.85, 3.06, "C"),
    Interval(3.06, 3.20, "B"),
    Interval(3.20, 4.17, "X"),
    Interval(4.17, 4.50, "C"),
    Interval(4.50, 4.58, "A"),
    Interval(4.58, 4.79, "F"),
    Interval(4.79, 4.84, "E"),
    Interval(4.84, 5.16, "C"),
    Interval(5.16, 5.23, "H"),
    Interval(5.23, 5.30, "C"),
    Interval(5.30, 5.44, "B"),
    Interval(5.44, 5.58, "F"),
    Interval(5.58, 5.72, "B"),
    Interval(5.72, 5.93, "E"),
    Interval(5.93, 6.07, "B")
  ]
  const Part2: seq<Interval> := [
    Interval(6.07, 6.21, "C"),
    Interval(6.21, 6.28, "B"),
    Interval(6.28, 6.45, "C"),
    Interval(6.45, 6.50, "G"),
    Interval(6.50, 6.54, "B"),
    Interval(6.54, 6.62, "A"),
    Interval(6.62, 7.11, "B"),
    Interval(7.11, 7.18, "D"),
    Interval(7.18, 7.39, "F"),
    Interval(7.39, 7.47, "A"),
    Interval(7.47, 7.54, "C"),
    Interval(7.54, 7.74, "B"),
    Interval(7.74, 7.81, "H"),
    Interval(7.81, 7.88, "C"),
    Interval(7.88, 7.95, "B"),
    Interval(7.95, 8.16, "C"),
    Interval(8.16, 8.23, "B"),
    Interval(8.23, 8.31, "A"),
    Interval(8.31, 8.48, "E")
  ]
  const Part3: seq<Interval> := [
    Interval(8.48, 8.84, "B"),
    Interval(8.84, 9.12, "C"),
    Interval(9.12, 9.20, "A"),
    Interval(9.20, 9.28, "B"),
    Interval(9.28, 9.35, "G"),
    Interval(9.35, 9.42, "C"),
    Interval(9.42, 9.49, "B"),
    Interval(9.49, 9.56, "G"),
    Interval(9.56, 9.63, "C"),
    Interval(9.63, 9.77, "F"),
    Interval(9.77, 9.85, "A"),
    Interval(9.85, 10.28, "B"),
    Interval(10.28, 10.35, "C"),
    Interval(10.35, 10.56, "B"),
    Interval(10.56, 10.63, "C"),
    Interval(10.63, 10.70, "F"),
    Interval(10.70, 10.84, "B"),
    Interval(10.84, 10.91, "C"),
    Interval(10.91, 10.99, "A")
  ]
  const Part4: seq<Interval> := [
    Interval(10.99, 11.22, "B"),
    Interval(11.22, 11.43, "C"),
    Interval(11.43, 11.71, "B"),
    Interval(11.71, 11.85, "E"),
    Interval(11.85, 11.99, "B"),
    Interval(11.99, 12.27, "D"),
    Interval(12.27, 12.34, "C"),
    Interval(12.34, 13.30, "X"),
    Interval(13.30, 13.35, "C"),
    Interval(13.35, 13.39, "B"),
    Interval(13.39, 13.46, "C"),
    Interval(13.46, 13.54, "A"),
    Interval(13.54, 13.63, "E"),
    Interval(13.63, 13.71, "A"),
    Interval(13.71, 13.89, "H"),
    Interval(13.89, 14.10, "C"),
    Interval(14.10, 14.18, "A"),
    Interval(14.18, 14.31, "H"),
    Interval(14.31, 14.45, "C")
  ]
  const Part5: seq<Interval> := [
    Interval(14.45, 14.59, "B"),
    Interval(14.59, 15.55, "X"),
    Interval(15.55, 15.66, "F"),
    Interval(15.66, 15.73, "B"),
    Interval(15.73, 15.80, "C"),
    Interval(15.80, 16.01, "B"),
    Interval(16.01, 16.15, "F"),
    Interval(16.15, 16.29, "G"),
    Interval(16.29, 16.50, "B"),
    Interval(16.50, 16.57, "F"),
    Interval(16.57, 16.65, "A"),
    Interval(16.65, 16.85, "B"),
    Interval(16.85, 16.92, "G"),
    Interval(16.92, 16.99, "B"),
    Interval(16.99, 17.06, "C"),
    Interval(17.06, 17.13, "B"),
    Interval(17.13, 17.27, "C"),
    Interval(17.27, 17.34, "B"),
    Interval(17.34, 17.55, "C")
  ]
  const Part6: seq<Interval> := [
    Interval(17.55, 17.69, "B"),
    Interval(17.69, 17.76, "G"),
    Interval(17.76, 17.83, "E"),
    Interval(17.83, 17.91, "A"),
    Interval(17.91, 18.13, "B"),
    Interval(18.13, 18.20, "C"),
    Interval(18.20, 18.48, "B"),
    Interval(18.48, 18.76, "C"),
    Interval(18.76, 19.20, "B"),
    Interval(19.20, 19.33, "D"),
    Interval(19.33, 19.47, "B"),
    Interval(19.47, 19.55, "A"),
    Interval(19.55, 19.63, "C"),
    Interval(19.63, 19.87, "B"),
    Interval(19.87, 20.00, "E"),
    Interval(20.00, 20.07, "B"),
    Interval(20.07, 20.14, "C"),
    Interval(20.14, 20.22, "A"),
    Interval(20.22, 20.42, "B")
  ]
  const Part7: seq<Interval> := [
    Interval(20.42, 20.63, "C"),
    Interval(20.63, 20.70, "H"),
    Interval(20.70, 20.77, "C"),
    Interval(20.77, 20.85, "A"),
    Interval(20.85, 21.02, "B"),
    Interval(21.02, 21.09, "C"),
    Interval(21.09, 21.30, "B"),
    Interval(21.30, 21.44, "E"),
    Interval(21.44, 21.51, "B"),
    Interval(21.51, 21.65, "C"),
    Interval(21.65, 21.86, "B"),
    Interval(21.86, 22.84, "X"),
    Interval(22.84, 22.93, "B"),
    Interval(22.93, 23.07, "E"),
    Interval(23.07, 23.14, "B"),
    Interval(23.14, 23.28, "C"),
    Interval(23.28, 23.56, "F"),
    Interval(23.56, 23.63, "E"),
    Interval(23.63, 23.70, "B")
  ]
  const Part8: seq<Interval> := [
    Interval(23.70, 23.78, "A"),
    Interval(23.78, 23.91, "C"),
    Interval(23.91, 23.98, "B"),
    Interval(23.98, 24.12, "C"),
    Interval(24.12, 24.40, "B"),
    Interval(24.40, 24.61, "F"),
    Interval(24.61, 24.96, "B"),
    Interval(24.96, 25.03, "C"),
    Interval(25.03, 25.10, "B"),
    Interval(25.10, 25.17, "F"),
    Interval(25.17, 25.31, "B"),
    Interval(25.31, 25.39, "A"),
    Interval(25.39, 25.53, "B"),
    Interval(25.53, 25.67, "E"),
    Interval(25.67, 25.88, "B"),
    Interval(25.88, 26.09, "C"),
    Interval(26.09, 26.37, "B"),
    Interval(26.37, 26.51, "D"),
    Interval(26.51, 26.58, "C")
  ]
  const Part9: seq<Interval> := [
    Interval(26.58, 26.65, "E"),
    Interval(26.65, 26.79, "B"),
    Interval(26.79, 26.86, "E"),
    Interval(26.86, 26.93, "G"),
    Interval(26.93, 27.07, "E"),
    Interval(27.07, 27.28, "B"),
    Interval(27.28, 28.23, "X"),
    Interval(28.23, 28.32, "C"),
    Interval(28.32, 28.39, "G"),
    Interval(28.39, 28.74, "B"),
    Interval(28.74, 28.82, "A"),
    Interval(28.82, 28.93, "B"),
    Interval(28.93, 29.07, "C"),
    Interval(29.07, 29.15, "A"),
    Interval(29.15, 29.24, "B"),
    Interval(29.24, 29.45, "F"),
    Interval(29.45, 29.59, "B"),
    Interval(29.59, 29.80, "E"),
    Interval(29.80, 29.94, "B")
  ]
  const Part10: seq<Interval> := [
    Interval(29.94, 30.01, "C"),
    Interval(30.01, 30.08, "B"),
    Interval(30.08, 30.16, "A"),
    Interval(30.16, 30.25, "C"),
    Interval(30.25, 30.74, "B"),
    Interval(30.74, 31.70, "X"),
    Interval(31.70, 31.74, "B"),
    Interval(31.74, 31.92, "C"),
    Interval(31.92, 32.20, "B"),
    Interval(32.20, 33.17, "X"),
    Interval(33.17, 33.22, "B"),
    Interval(33.22, 33.26, "C"),
    Interval(33.26, 33.40, "D"),
    Interval(33.40, 34.03, "B"),
    Interval(34.03, 34.24, "D"),
    Interval(34.24, 34.31, "B"),
    Interval(34.31, 34.52, "E"),
    Interval(34.52, 34.59, "F"),
    Interval(34.59, 35.44, "X")
  ]
  /** `phonemeSequence`. */
  const Timeline: seq<Interval> :=
    Part0 + Part1 + Part2 + Part3 + Part4 + Part5 + Part6 + Part7 + Part8 + Part9 + Part10
  lemma Part0WellFormed()
    ensures WellFormed(Part0) && |Part0| == 19
    ensures Part0[0].start == 0.00 && Part0[18].end == 2.22
  {
  }
  lemma Part1WellFormed()
    ensures WellFormed(Part1) && |Part1| == 19
    ensures Part1[0].start == 2.22 && Part1[18].end == 6.07
  {
  }
  lemma Part2WellFormed()
    ensures WellFormed(Part2) && |Part2| == 19
    ensures Part2[0].start == 6.07 && Part2[18].end == 8.48
  {
  }
  lemma Part3WellFormed()
    ensures WellFormed(Part3) && |Part3| == 19
    ensures Part3[0].start == 8.48 && Part3[18].end == 10.99
  {
  }
  lemma Part4WellFormed()
    ensures WellFormed(Part4) && |Part4| == 19
    ensures Part4[0].start == 10.99 && Part4[18].end == 14.45
  {
  }
  lemma Part5WellFormed()
    ensures WellFormed(Part5) && |Part5| == 19
    ensures Part5[0].start == 14.45 && Part5[18].end == 17.55
  {
  }
  lemma Part6WellFormed()
    ensures WellFormed(Part6) && |Part6| == 19
    ensures Part6[0].start == 17.55 && Part6[18].end == 20.42
  {
  }
  lemma Part7WellFormed()
    ensures WellFormed(Part7) && |Part7| == 19
    ensures Part7[0].start == 20.42 && Part7[18].end == 23.70
  {
  }
  lemma Part8WellFormed()
    ensures WellFormed(Part8) && |Part8| == 19
    ensures Part8[0].start == 23.70 && Part8[18].end == 26.58
  {
  }
  lemma Part9WellFormed()
    ensures WellFormed(Part9) && |Part9| == 19
    ensures Part9[0].start == 26.58 && Part9[18].end == 29.94
  {
  }
  lemma Part10WellFormed()
    ensures WellFormed(Part10) && |Part10| == 19
    ensures Part10[0].start == 29.94 && Part10[18].end == 35.44
  {
  }
  /** Two well-formed timelines that meet end to start form one. */
  lemma AppendWellFormed(a: seq<Interval>, b: seq<Interval>)
    requires WellFormed(a) && WellFormed(b)
    requires a[|a| - 1].end == b[0].start
    ensures WellFormed(a + b)
    ensures (a + b)[0] == a[0] && (a + b)[|a + b| - 1] == b[|b| - 1]
  {
    var ab := a + b;
    forall i | 0 <= i < |ab| - 1
      ensures ab[i].end == ab[i + 1].start
    {
      if i < |a| - 1 {
        assert ab[i] == a[i] && ab[i + 1] == a[i + 1];
      } else if i == |a| - 1 {
        assert ab[i] == a[i] && ab[i + 1] == b[0];
      } else {
        assert ab[i] == b[i - |a|] && ab[i + 1] == b[i - |a| + 1];
      }
    }
  }

  /** The timeline constant is well formed, has 209 entries and runs from
      0.00 to 35.44 seconds. */
  lemma TimelineWellFormed()
    ensures WellFormed(Timeline)
    ensures |Timeline| == 209
    ensures Timeline[0].start == 0.00 && Timeline[|Timeline| - 1].end == 35.44
  {
    Part0WellFormed();
    Part1WellFormed();
    Part2WellFormed();
    Part3WellFormed();
    Part4WellFormed();
    Part5WellFormed();
    Part6WellFormed();
    Part7WellFormed();
    Part8WellFormed();
    Part9WellFormed();
    Part10WellFormed();
    var acc := Part0;
    AppendWellFormed(acc, Part1);
    acc := acc + Part1;
    AppendWellFormed(acc, Part2);
    acc := acc + Part2;
    AppendWellFormed(acc, Part3);
    acc := acc + Part3;
    AppendWellFormed(acc, Part4);
    acc := acc + Part4;
    AppendWellFormed(acc, Part5);
    acc := acc + Part5;
    AppendWellFormed(acc, Part6);
    acc := acc + Part6;
    AppendWellFormed(acc, Part7);
    acc := acc + Part7;
    AppendWellFormed(acc, Part8);
    acc := acc + Part8;
    AppendWellFormed(acc, Part9);
    acc := acc + Part9;
    AppendWellFormed(acc, Part10);
    acc := acc + Part10;
    assert acc == Timeline;
  }
}

=== FILE: socket_client.dfy ===
/** The reconnecting socket client of `useWebSocket`
    (src/pages/landingpage.jsx:12-138) as a state machine. The browser's
    socket, its events and the `setTimeout` timers become abstract events;
    the hook's React state (`isConnected`, `error`, `receivedData`) and the
    frames handed to the socket are the state. */
module SocketClient {
  import opened Common
  import JsonText
  import Inbound

  /** The delay before a reconnect attempt, in milliseconds. */
  const ReconnectDelayMs: nat := 3000

  /** The `readyState` of the socket object currently held in `wsRef`. */
  datatype ReadyState = Connecting | Open | Closing | Closed

  /** What a socket carries out: a text frame, or an audio payload forwarded
      as it is. */
  datatype Frame = TextFrame(text: string) | BinaryFrame(bytes: seq<bv8>)

  /** The error values the hook stores: the socket's `error` event, or the
      exception `new WebSocket(url)` threw. */
  datatype Failure = SocketErrorEvent | ConstructError(reason: string)

  /** How one call of `connect` ends: a socket was constructed, or the
      constructor threw. */
  datatype ConnectOutcome = Constructed | Threw(err: Failure)

  /** A pending `setTimeout(connect, delayMs)`. */
  datatype Timer = ReconnectTimer(delayMs: nat)

  datatype Client = Client(
    socket: Option<ReadyState>,   // wsRef.current: None until a socket was constructed
    isConnected: bool,
    error: Option<Failure>,
    receivedData: Option<Inbound.Parsed>,
    timers: seq<Timer>,           // pending reconnect timers, oldest first
    sent: seq<Frame>,             // every frame handed to a socket, in order
    mounted: bool)

  /** The events the environment and the page deliver. `Message(None)` is a
      frame that failed to parse. */
  datatype Event =
    | OpenEvent
    | CloseEvent
    | ErrorEvent
    | Message(parsed: Option<Inbound.Parsed>)
    | TimerFires(outcome: ConnectOutcome)
    | SendText(text: string)
    | SendAudio(bytes: seq<bv8>)
    | Unmount

  /** A socket that can still produce events. */
  predicate Live(s: Option<ReadyState>)
  {
    s == Some(Connecting) || s == Some(Open) || s == Some(Closing)
  }

  /** `connect` (landingpage.jsx:48-108): construct a socket and hold it, or
      record the exception and schedule one retry. */
  function Connect(c: Client, outcome: ConnectOutcome): (r: Client)
    ensures outcome.Constructed? ==> r.socket == Some(Connecting) && r.timers == c.timers
    ensures outcome.Threw? ==>
              r.socket == c.socket && r.error == Some(outcome.err)
              && r.timers == c.timers + [ReconnectTimer(ReconnectDelayMs)]
    ensures r.isConnected == c.isConnected && r.sent == c.sent && r.receivedData == c.receivedData
  {
    match outcome
    case Constructed => c.(socket := Some(Connecting))
    case Threw(e) => c.(error := Some(e), timers := c.timers + [ReconnectTimer(ReconnectDelayMs)])
  }

  /** The state after mounting: fresh React state, then the first `connect`. */
  function Mount(outcome: ConnectOutcome): Client
  {
    Connect(Client(None, false, None, None, [], [], true), outcome)
  }

  /** `onopen`: connected, and the last error is cleared. */
  function OnOpen(c: Client): (r: Client)
    ensures c.socket == Some(Connecting) ==>
              r.socket == Some(Open) && r.isConnected && r.error.None?
              && r.timers == c.timers && r.sent == c.sent && r.receivedData == c.receivedData
    ensures c.socket != Some(Connecting) ==> r == c
  {
    if c.socket == Some(Connecting) then c.(socket := Some(Open), isConnected := true, error := None) else c
  }

  /** `onclose`: disconnected, and exactly one reconnect scheduled 3000 ms
      later. There is no retry limit and no check of `mounted`. */
  function OnClose(c: Client): (r: Client)
    ensures Live(c.socket) ==>
              r.socket == Some(Closed) && !r.isConnected
              && r.timers == c.timers + [ReconnectTimer(ReconnectDelayMs)]
              && r.error == c.error && r.sent == c.sent && r.receivedData == c.receivedData
    ensures !Live(c.socket) ==> r == c
  {
    if Live(c.socket) then c.(socket := Some(Closed), isConnected := false, timers := c.timers + [ReconnectTimer(ReconnectDelayMs)])
    else c
  }

  /** `onerror`: the error is recorded; nothing else moves. */
  function OnError(c: Client): (r: Client)
    ensures Live(c.socket) ==> r.error == Some(SocketErrorEvent)
    ensures r.(error := c.error) == c
  {
    if Live(c.socket) then c.(error := Some(SocketErrorEvent)) else c
  }

  /** `onmessage`: a frame that parses becomes `receivedData`; one that does
      not is dropped and changes nothing. */
  function OnMessage(c: Client, parsed: Option<Inbound.Parsed>): (r: Client)
    ensures parsed.None? ==> r == c
    ensures Delivered(c, parsed) ==> r == c.(receivedData := parsed)
    ensures !Delivered(c, parsed) ==> r == c
  {
    if Delivered(c, parsed) then c.(receivedData := parsed) else c
  }

  /** Whether `onmessage` passes a parsed frame on: the socket must be open
      (the WHATWG WebSockets standard's steps for a received message do
      nothing unless the state is OPEN) and the frame must parse. */
  predicate Delivered(c: Client, parsed: Option<Inbound.Parsed>)
  {
    c.socket == Some(Open) && parsed.Some?
  }

  /** The oldest pending reconnect timer fires and calls `connect` again. */
  function OnTimer(c: Client, outcome: ConnectOutcome): (r: Client)
    ensures |c.timers| == 0 ==> r == c
    ensures |c.timers| > 0 && outcome.Constructed? ==>
              r.socket == Some(Connecting) && |r.timers| == |c.timers| - 1
    ensures |c.timers| > 0 && outcome.Threw? ==>
              r.socket == c.socket && |r.timers| == |c.timers| && r.error == Some(outcome.err)
    ensures r.sent == c.sent && r.isConnected == c.isConnected
  {
    if |c.timers| == 0 then c else Connect(c.(timers := c.timers[1..]), outcome)
  }

  /** `sendTextData`: one envelope frame when the socket is open; otherwise
      nothing is sent, queued or thrown. */
  function SendTextData(c: Client, text: string): (r: Client)
    ensures c.socket == Some(Open) ==>
              |r.sent| == |c.sent| + 1 && r.sent[..|c.sent|] == c.sent
              && r.sent[|c.sent|].TextFrame?
              && JsonText.DecodeEnvelope(r.sent[|c.sent|].text) == Some(text)
    ensures c.socket != Some(Open) ==> r == c
    ensures r.(sent := c.sent) == c
  {
    var r := if c.socket == Some(Open) then c.(sent := c.sent + [TextFrame(JsonText.Envelope(text))]) else c;
    JsonText.EnvelopeRoundTrip(text);
    r
  }

  /** `sendAudioData`: the payload itself, with no envelope, when the socket
      is open; otherwise nothing. */
  function SendAudioData(c: Client, bytes: seq<bv8>): (r: Client)
    ensures c.socket == Some(Open) ==> r.sent == c.sent + [BinaryFrame(bytes)]
    ensures c.socket != Some(Open) ==> r == c
    ensures r.(sent := c.sent) == c
  {
    if c.socket == Some(Open) then c.(sent := c.sent + [BinaryFrame(bytes)]) else c
  }

  /** The cleanup returned by the effect: it closes the held socket and does
      nothing else; pending reconnect timers stay scheduled. */
  function OnUnmount(c: Client): (r: Client)
    ensures !r.mounted && r.timers == c.timers
    ensures Live(c.socket) ==> r.socket == Some(Closing)
    ensures !Live(c.socket) ==> r.socket == c.socket
    ensures r.(mounted := c.mounted, socket := c.socket) == c
  {
    var s := if c.socket == Some(Connecting) || c.socket == Some(Open) then Some(Closing) else c.socket;
    c.(socket := s, mounted := false)
  }

  /** One event. Events a socket in the current state cannot produce leave
      the state as it is. */
  function Step(c: Client, e: Event): (r: Client)
    ensures r.sent == c.sent
            || ((e.SendText? || e.SendAudio?) && |r.sent| == |c.sent| + 1 && r.sent[..|c.sent|] == c.sent)
  {
    match e
    case OpenEvent => OnOpen(c)
    case CloseEvent => OnClose(c)
    case ErrorEvent => OnError(c)
    case Message(p) => OnMessage(c, p)
    case TimerFires(o) => OnTimer(c, o)
    case SendText(t) => SendTextData(c, t)
    case SendAudio(b) => SendAudioData(c, b)
    case Unmount => OnUnmount(c)
  }

  /** A run of events, in order. */
  function Run(c: Client, es: seq<Event>): Client
  {
    if |es| == 0 then c else Step(Run(c, es[..|es| - 1]), es[|es| - 1])
  }

  /** The client's invariant: a socket is dead exactly when one reconnect is
      pending, never more than one is pending, every pending timer waits
      3000 ms, and `isConnected` means the socket was opened. */
  ghost predicate Valid(c: Client)
  {
    && |c.timers| <= 1
    && (|c.timers| == 1 <==> !Live(c.socket))
    && (forall i :: 0 <= i < |c.timers| ==> c.timers[i].delayMs == ReconnectDelayMs)
    && (c.isConnected ==> c.socket == Some(Open) || c.socket == Some(Closing))
    && (c.socket == Some(Open) ==> c.isConnected)
  }

  lemma MountValid(outcome: ConnectOutcome)
    ensures Valid(Mount(outcome))
  {
  }

  lemma StepValid(c: Client, e: Event)
    requires Valid(c)
    ensures Valid(Step(c, e))
  {
    match e
    case TimerFires(o) =>
      if |c.timers| > 0 {
        assert c.timers[1..] == [];
      }
    case _ =>
  }

  /** Every state reachable from mounting satisfies the invariant: at most
      one live socket, at most one pending reconnect, and never a dead
      socket without one. */
  lemma {:induction false} RunValid(outcome: ConnectOutcome, es: seq<Event>)
    ensures Valid(Run(Mount(outcome), es))
  {
    if |es| == 0 {
      MountValid(outcome);
    } else {
      RunValid(outcome, es[..|es| - 1]);
      StepValid(Run(Mount(outcome), es[..|es| - 1]), es[|es| - 1]);
    }
  }

  /** Retrying never stops: from any reachable state whose socket is dead, the
      pending timer's firing makes a new connection attempt. */
  lemma RetriesNeverStop(outcome: ConnectOutcome, es: seq<Event>)
    ensures var c := Run(Mount(outcome), es);
            !Live(c.socket) ==> |c.timers| == 1 && Step(c, TimerFires(Constructed)).socket == Some(Connecting)
  {
    RunValid(outcome, es);
  }

  /** Unmounting does not stop reconnection: once the closing socket's close
      event arrives, a reconnect is scheduled, and when it fires a new socket
      is constructed although the page is gone. */
  lemma UnmountStillReconnects(c: Client)
    requires Valid(c) && Live(c.socket)
    ensures var u := Step(Step(c, Unmount), CloseEvent);
            !u.mounted && |u.timers| == 1
            && Step(u, TimerFires(Constructed)).socket == Some(Connecting)
  {
  }

  /** Unmounting twice is unmounting once. */
  lemma UnmountIdempotent(c: Client)
    ensures OnUnmount(OnUnmount(c)) == OnUnmount(c)
  {
  }

  /** The client does not deduplicate: the same text sent twice on an open
      socket leaves as two identical frames. */
  lemma SendTextNotDeduplicated(c: Client, text: string)
    requires c.socket == Some(Open)
    ensures var r := Step(Step(c, SendText(text)), SendText(text));
            |r.sent| == |c.sent| + 2 && r.sent[|c.sent|] == r.sent[|c.sent| + 1]
            && JsonText.DecodeEnvelope(r.sent[|c.sent|].text) == Some(text)
  {
  }

  /** The number of frames a run sends is at most the number of send calls
      in it; nothing is ever queued and sent later. */
  lemma {:induction false} SentOnlyOnRequest(c: Client, es: seq<Event>)
    ensures |c.sent| <= |Run(c, es).sent| <= |c.sent| + SendCalls(es)
    ensures Run(c, es).sent[..|c.sent|] == c.sent
  {
    if |es| > 0 {
      SentOnlyOnRequest(c, es[..|es| - 1]);
      var prev := Run(c, es[..|es| - 1]);
      var r := Step(prev, es[|es| - 1]);
      assert r.sent[..|c.sent|] == r.sent[..|prev.sent|][..|c.sent|];
    }
  }

  /** How many send calls a run holds. */
  function SendCalls(es: seq<Event>): nat
  {
    if |es| == 0 then 0
    else SendCalls(es[..|es| - 1]) + (if es[|es| - 1].SendText? || es[|es| - 1].SendAudio? then 1 else 0)
  }
}

=== FILE: speech_session.dfy ===
/** The state `useSpeechRecognition` exposes (src/pages/landingpage.jsx:370-548):
    the recognised transcript, the interim text and whether the user asked
    to listen, and the three operations that change them: the `result`
    handler, `startListening` and `stopListening`. Starting and stopping the
    recogniser itself is left to the browser. */
module SpeechSession {

  /** One recognition result: the text of its first alternative and whether
      the recogniser has finished with it. */
  datatype Piece = Piece(transcript: string, isFinal: bool)

  /** A `result` event: all results of the session so far, and the index of
      the first one that changed. */
  datatype ResultEvent = ResultEvent(resultIndex: nat, results: seq<Piece>)

  datatype Speech = Speech(transcript: string, interim: string, isListening: bool)

  /** The hook's state on mount. */
  const Idle := Speech("", "", false)

  /** The results `handleResult` looks at: those from `resultIndex` on. */
  function Considered(ev: ResultEvent): (rs: seq<Piece>)
    ensures |rs| == 0 || ev.resultIndex + |rs| == |ev.results|
    ensures forall k :: 0 <= k < |rs| ==> rs[k] == ev.results[ev.resultIndex + k]
  {
    if ev.resultIndex <= |ev.results| then ev.results[ev.resultIndex..] else []
  }

  /** The final pieces, each followed by one space, in order. */
  function FinalText(rs: seq<Piece>): string
  {
    if |rs| == 0 then ""
    else
      var last := rs[|rs| - 1];
      FinalText(rs[..|rs| - 1]) + (if last.isFinal then last.transcript + " " else "")
  }

  /** The interim pieces, concatenated without separators. */
  function InterimText(rs: seq<Piece>): string
  {
    if |rs| == 0 then ""
    else
      var last := rs[|rs| - 1];
      InterimText(rs[..|rs| - 1]) + (if last.isFinal then "" else last.transcript)
  }

  /** Some piece is final. */
  predicate HasFinal(rs: seq<Piece>)
  {
    exists k :: 0 <= k < |rs| && rs[k].isFinal
  }

  /** The final text is non-empty exactly when some piece is final (even an
      empty final piece contributes its space), and then it ends in a space. */
  lemma {:induction false} FinalTextNonEmptyIff(rs: seq<Piece>)
    ensures FinalText(rs) != "" <==> HasFinal(rs)
    ensures HasFinal(rs) ==> FinalText(rs)[|FinalText(rs)| - 1] == ' '
  {
    if |rs| > 0 {
      var init := rs[..|rs| - 1];
      FinalTextNonEmptyIff(init);
      if HasFinal(init) {
        var k :| 0 <= k < |init| && init[k].isFinal;
        assert rs[k] == init[k];
      }
      if HasFinal(rs) && !rs[|rs| - 1].isFinal {
        var k :| 0 <= k < |rs| && rs[k].isFinal;
        assert init[k] == rs[k];
      }
    }
  }

  /** The loop of `handleResult` (landingpage.jsx:421-432): one pass from
      `resultIndex` to the end, sorting each piece into the final or the
      interim text. */
  method CollectResults(ev: ResultEvent) returns (finalText: string, interimText: string)
    ensures finalText == FinalText(Considered(ev))
    ensures interimText == InterimText(Considered(ev))
  {
    finalText, interimText := "", "";
    var i := ev.resultIndex;
    while i < |ev.results|
      invariant ev.resultIndex <= i <= |ev.results| || (i == ev.resultIndex && i >= |ev.results|)
      invariant i <= |ev.results| ==> finalText == FinalText(ev.results[ev.resultIndex..i])
      invariant i <= |ev.results| ==> interimText == InterimText(ev.results[ev.resultIndex..i])
      invariant i > |ev.results| ==> finalText == "" && interimText == ""
      decreases |ev.results| - i
    {
      var piece := ev.results[i];
      assert ev.results[ev.resultIndex..i + 1][..i - ev.resultIndex] == ev.results[ev.resultIndex..i];
      if piece.isFinal {
        finalText := finalText + piece.transcript + " ";
      } else {
        interimText := interimText + piece.transcript;
      }
      i := i + 1;
    }
    if ev.resultIndex <= |ev.results| {
      assert ev.results[ev.resultIndex..i] == Considered(ev);
    }
  }

  /** `handleResult`: final pieces replace the transcript (they are not
      appended to it) and clear the interim text; otherwise a non-empty
      interim text replaces the interim text. */
  function HandleResult(sp: Speech, ev: ResultEvent): (r: Speech)
    ensures r.isListening == sp.isListening
    ensures HasFinal(Considered(ev)) ==>
              r.transcript == FinalText(Considered(ev)) && r.interim == ""
              && |r.transcript| > 0 && r.transcript[|r.transcript| - 1] == ' '
    ensures !HasFinal(Considered(ev)) ==>
              r.transcript == sp.transcript
              && r.interim == (if InterimText(Considered(ev)) != "" then InterimText(Considered(ev)) else sp.interim)
  {
    var rs := Considered(ev);
    var finalText, interimText := FinalText(rs), InterimText(rs);
    FinalTextNonEmptyIff(rs);
    var afterInterim := if interimText != "" then sp.(interim := interimText) else sp;
    if finalText != "" then afterInterim.(transcript := finalText, interim := "") else afterInterim
  }

  /** `startListening`: clear both texts and ask to listen. */
  function StartListening(sp: Speech): (r: Speech)
    ensures r.isListening && r.transcript == "" && r.interim == ""
  {
    Speech("", "", true)
  }

  /** `stopListening`: stop asking to listen and clear both texts. */
  function StopListening(sp: Speech): (r: Speech)
    ensures !r.isListening && r.transcript == "" && r.interim == ""
  {
    Speech("", "", false)
  }

  /** Results before `resultIndex` do not matter: replacing them changes
      nothing. */
  lemma EarlierResultsIgnored(sp: Speech, ev: ResultEvent, earlier: seq<Piece>)
    requires ev.resultIndex <= |ev.results|
    ensures HandleResult(sp, ResultEvent(|earlier|, earlier + ev.results[ev.resultIndex..])) == HandleResult(sp, ev)
  {
    var ev' := ResultEvent(|earlier|, earlier + ev.results[ev.resultIndex..]);
    assert Considered(ev') == Considered(ev);
  }

  /** A result whose only pieces are interim and empty changes nothing. */
  lemma EmptyInterimKeepsState(sp: Speech, ev: ResultEvent)
    requires forall k :: 0 <= k < |Considered(ev)| ==> !Considered(ev)[k].isFinal && Considered(ev)[k].transcript == ""
    ensures HandleResult(sp, ev) == sp
  {
    InterimEmpty(Considered(ev));
  }

  lemma {:induction false} InterimEmpty(rs: seq<Piece>)
    requires forall k :: 0 <= k < |rs| ==> !rs[k].isFinal && rs[k].transcript == ""
    ensures InterimText(rs) == "" && !HasFinal(rs)
  {
    if |rs| > 0 {
      InterimEmpty(rs[..|rs| - 1]);
    }
  }
}

=== FILE: visemes.dfy ===
/** The two lookup tables of src/components/avatarmodel.jsx:10-42: from a
    phoneme label of the timeline to a viseme name, and from a viseme name
    to the name of the morph target the frame step drives. */
module Visemes {
  import opened Common

  /** `visemeToMouthMovement` (avatarmodel.jsx:10-29). */
  const VisemeToMouthMovement: map<string, string> := map[
    "viseme_PP" := "mouthPress_L",
    "viseme_kk" := "mouthStretch_L",
    "viseme_I"  := "jawOpen",
    "viseme_AA" := "jawOpen",
    "viseme_O"  := "mouthFunnel",
    "viseme_U"  := "mouthPucker",
    "viseme_FF" := "mouthPress_L",
    "viseme_TH" := "mouthStretch_L",
    "viseme_X"  := "mouthPress_R"
  ]

  /** `phonemeToViseme` (avatarmodel.jsx:32-42). Note that X maps to the
      closed-lips viseme, not to `viseme_X`. */
  const PhonemeToViseme: map<string, string> := map[
    "A" := "viseme_PP",
    "B" := "viseme_kk",
    "C" := "viseme_I",
    "D" := "viseme_AA",
    "E" := "viseme_O",
    "F" := "viseme_U",
    "G" := "viseme_FF",
    "H" := "viseme_TH",
    "X" := "viseme_PP"
  ]

  /** The morph target a phoneme label drives:
      `visemeToMouthMovement[phonemeToViseme[phoneme]]`, None where JavaScript
      would produce `undefined`. */
  function MorphFor(phoneme: string): (r: Option<string>)
    ensures r.Some? <==> phoneme in PhonemeToViseme
    ensures r.Some? ==> r.value in VisemeToMouthMovement.Values
  {
    if phoneme in PhonemeToViseme && PhonemeToViseme[phoneme] in VisemeToMouthMovement
    then Some(VisemeToMouthMovement[PhonemeToViseme[phoneme]])
    else None
  }

  /** The composite mapping, label by label. */
  lemma CompositeMapping()
    ensures MorphFor("A") == MorphFor("G") == MorphFor("X") == Some("mouthPress_L")
    ensures MorphFor("B") == MorphFor("H") == Some("mouthStretch_L")
    ensures MorphFor("C") == MorphFor("D") == Some("jawOpen")
    ensures MorphFor("E") == Some("mouthFunnel")
    ensures MorphFor("F") == Some("mouthPucker")
  {
  }

  /** The five morph targets the composite mapping can produce. */
  const DrivenMorphs: set<string> := {"mouthPress_L", "mouthStretch_L", "jawOpen", "mouthFunnel", "mouthPucker"}

  /** The right-side press target, `viseme_X`'s, is never produced: no phoneme
      maps to `viseme_X`, and every phoneme maps into the five driven targets. */
  lemma MorphForRange(phoneme: string)
    ensures MorphFor(phoneme).Some? ==> MorphFor(phoneme).value in DrivenMorphs
    ensures MorphFor(phoneme) != Some("mouthPress_R")
  {
  }
}
